=== FILE: README.md ===
# IBM COS Go SDK: credential resolution, IAM providers and bearer signing

This project models the credential core of the IBM Cloud Object Storage SDK for Go in Dafny, and proves properties about that model. The core covers the following:

- **Credential chain.** The loader looks for an explicitly supplied provider first. If there is none, it partitions the configuration sources into the environment config, the shared-profile config and the other sources. It then chooses, in order:
  - the profile-based path, when a profile was set programmatically;
  - static keys from the environment;
  - the profile fallback.

  The fallback follows source-profile links and dispatches on static keys, a named credential source, a credential process or instance metadata. Every decision point is recorded, in order, as provenance on the context. Every chosen provider is wrapped in the credentials cache. A caller's cache options come first and the configured ones are applied last.
- **Local HTTP endpoint validation.** A plain `http` credential endpoint is accepted only when its host is loopback. A host name must resolve to loopback addresses only. The endpoint provider's cache gets a five-minute expiry window, which configured options may override.
- **Bearer-token resolution.** A supplied token provider is wrapped in the token cache. The option layers are applied in this order: the defaults (refresh 5 minutes early, 30-second timeout), then the caller's options, then the configured options.
- **IBM IAM providers.** There are two: an API-key provider and a trusted-profile provider for compute resources. Neither constructor fails. A construction error is stored on the provider, and retrieval reports it without contacting the token service. A token-service failure is reported as a fixed, redacted error. A token becomes credentials whose token type is `Bearer`. The credential source is the provider's name, and the service instance ID is carried along. Named constructors and the provider-name enum are part of this layer.
- **Request signer.** It replaces AWS signing with an `Authorization: <type> <token>` header. It adds the service instance ID header unless the request already names one, and it strips the AWS signature headers.

## Modelling conventions

- Mutation of the client configuration is modelled as a function that returns the configuration after the call together with the error (`ResolveCredentials.Outcome`). When cache wrapping fails, Go assigns a nil provider; the model writes `NoProvider`.
- Provenance is a `Provenance.Context` holding the optional list of credential-source tags. Reading the tags before any tag exists is a run-time fault in Go, so `GetCredentialSources` requires that the list exists.
- An option function is modelled as the fields it writes (`Some(v)` or `None`). The options record it acts on is the fold of those writes. `Options.FoldIsLastWriter` proves that this fold gives each field the value of the last writer.
- Collaborators outside the model are passed in as function-typed parameters. They are:
  - the configuration lookups (`ConfigSources.Lookups`);
  - URL parsing, IP parsing and DNS lookup (`LocalHttpCredentials.Net`);
  - whether an authenticator builder accepts its settings (`buildOk`);
  - the token exchange (`getToken`).
- HTTP headers are a map from canonical header names to their value lists.
- Durations are whole seconds.

## Model

| member | source | states |
|---|---|---|
| Options.FoldIsLastWriter | config/resolve_credentials.go:367-374 | Applying option functions in list order leaves every field at the value of the last function that writes it, or at the base value when none does. |
| Options.LayeredWriters | config/resolve_bearer_token.go:54-62 | With a defaults option first, then a caller list, then at most one configured option, the configured write decides the field; without it, the caller's last write over the default decides. |
| Aws.EffectiveCacheOptions | config/resolve_credentials.go:374 | Applying the cache's option writes in order leaves the expiry window at the last window any option sets, and at zero otherwise. |
| Aws.AppendedCacheOptionApplied | config/resolve_credentials.go:367-372 | An option appended after the others decides the expiry window if it sets one. Otherwise it leaves the earlier options' result. |
| SmithyBearer.EffectiveTokenCacheOptions | config/resolve_bearer_token.go:64 | Applying the token cache's option writes in order leaves each field at the last value any option writes to it, and at zero otherwise. |
| Provenance.AddCredentialSource | config/resolve_credentials.go:381-389 | Adding a tag always leaves a list on the context. That list is the previous list with the new tag appended, so the earlier tags keep their order. |
| Provenance.GetCredentialSources | config/resolve_credentials.go:391-393 | Reading the provenance returns exactly the tags recorded so far. It may only be called once a tag exists. |
| Provenance.AddRepeated | config/resolve_credentials.go:381-389 | Adding the same tag n times appends exactly n copies of it. |
| ConfigSources.GetAWSConfigSources | config/resolve_credentials.go:306-346 | The partition returns three things. The environment config is the first one given by value or by non-nil pointer, else the empty one. The shared config follows the reference choice (see next row), else the empty one. The other sources are exactly the non-config elements, in their original order. |
| ConfigSources.ScanMatchesReferences | config/resolve_credentials.go:314-335 | The single pass over the list (first match wins; a pointer overwrites) computes the three reference definitions for every list. |
| ConfigSources.NoPointerFirstSharedValueWins | config/resolve_credentials.go:324-327 | Without shared-config pointers, the first shared config given by value is the one chosen. |
| ConfigSources.PointerBeforeEnvOverrides | config/resolve_credentials.go:328-331 | A shared-config pointer seen before any environment config replaces the shared config chosen so far, including one given by value. |
| ConfigSources.PointerAfterEnvIgnored | config/resolve_credentials.go:328-331 | A shared-config pointer that follows an environment config changes nothing in the partition. |
| ResolveCredentials.WrapWithCredentialsCache | config/resolve_credentials.go:351-375 | An existing cache is returned unchanged. A failed options lookup is returned as the error. Otherwise the cache wraps the provider, and its options are exactly the caller's options followed by the configured option when one is found; that option's expiry-window write wins. |
| ResolveCredentials.WrapIdempotent | config/resolve_credentials.go:357-360 | Wrapping an already wrapped provider again gives the same provider. |
| ResolveCredentials.ResolveCredsFromSource | config/resolve_credentials.go:293-304 | It succeeds exactly when the credential source is `Environment`. On success it appends the `http` tag and installs the environment keys with the full provenance. Any other value yields the fixed error and leaves the context and configuration as they were. |
| ResolveCredentials.ResolveCredsFromProfile | config/resolve_credentials.go:151-194 | Profile resolution always leaves a tag list that extends the caller's with at least one tag. It never touches the bearer provider. On error it leaves the configuration unchanged. Any provider it installs is static, carrying exactly the recorded provenance. |
| ResolveCredentials.SourceChainTransparent | config/resolve_credentials.go:153-156 | Resolving through n source-profile links is resolving the terminal profile after adding n `profile-source-profile` tags. |
| ResolveCredentials.ProfileProvenance | config/resolve_credentials.go:151-188 | The recorded provenance is one source-profile tag per link, followed by the tags of the branch the terminal profile selects. |
| ResolveCredentials.ProfileProvider | config/resolve_credentials.go:151-194 | The terminal profile determines the outcome. Static keys install those keys; an `Environment` credential source installs the environment keys; any other credential source is an error with the configuration unchanged. Process and instance-metadata profiles install nothing. |
| ResolveCredentials.SourceProfileWithKeys | config/resolve_credentials.go:153-164 | A profile whose source profile holds static keys yields exactly [profile-source-profile, profile] and that profile's keys. |
| ResolveCredentials.ChainBranch | config/resolve_credentials.go:124-137 | A programmatically set profile takes precedence. Otherwise environment keys install a static provider tagged exactly `env-vars` after the caller's tags. Otherwise profile resolution decides. |
| ResolveCredentials.InstallCache | config/resolve_credentials.go:142-146 | After the branch succeeds, the configuration ends with a cache provider. A wrapping error leaves the nil provider. |
| ResolveCredentials.ResolveCredentialChain | config/resolve_credentials.go:113-149 | A failed profile lookup (asked only of the other sources) aborts with the configuration unchanged. Success always ends with a cache. The bearer provider is never touched. |
| ResolveCredentials.ChainEnvKeys | config/resolve_credentials.go:129-131 | With environment keys and no profile set, the cached provider is the static one with provenance exactly [env-vars]. It fails only when the cache options lookup fails. |
| ResolveCredentials.ChainProfileSetWins | config/resolve_credentials.go:119-126 | When a profile is set programmatically, the chain is profile resolution followed by cache wrapping, even if environment keys exist. |
| ResolveCredentials.ChainFallback | config/resolve_credentials.go:135-136 | With neither a set profile nor environment keys, the chain is profile resolution followed by cache wrapping. |
| ResolveCredentials.ResolveCredentialProvider | config/resolve_credentials.go:47-59 | It reports found exactly when a provider was supplied and wrapping succeeded. Not found leaves everything unchanged. A lookup error is returned. The installed provider is the supplied one, wrapped. |
| ResolveCredentials.ResolveCredentials | config/resolve_credentials.go:29-36 | A supplied provider, or a failed lookup of one, decides the outcome. Only when no provider is supplied does the chain run. |
| ResolveCredentials.ExplicitProviderBypassesChain | config/resolve_credentials.go:29-36 | With a supplied provider, the outcome does not depend on the provenance context, the profile lookup or the environment and shared configs. |
| LocalHttpCredentials.IsIPAllowed | config/resolve_credentials.go:219-221 | An address is allowed exactly when it is a loopback address. No other address, container addresses included, is allowed. |
| LocalHttpCredentials.IsAllowedHost | config/resolve_credentials.go:200-217 | An IP literal is allowed iff it is loopback. A host name is allowed iff every address it resolves to parses as a loopback IP. A failed lookup is returned as the error. |
| LocalHttpCredentials.ResolveHTTPCredProvider | config/resolve_credentials.go:249-291 | A failed endpoint-options lookup is returned unchanged. On success the endpoint provider for the URL is installed in a cache whose option writes leave the expiry window at five minutes, unless a configured option writes another. |
| LocalHttpCredentials.ResolveLocalHTTPCredProvider | config/resolve_credentials.go:223-247 | An unparsable URL, an empty host, an unresolvable host or a non-loopback `http` host each give their own error, and no provider is built. Every other URL is handed to the HTTP provider resolution. |
| ResolveBearerToken.TokenCacheOptionLayers | config/resolve_bearer_token.go:54-62 | The effective token-cache options apply the configured write if present, else the caller's last write, else the default. |
| ResolveBearerToken.WrapWithBearerAuthTokenCache | config/resolve_bearer_token.go:38-65 | An existing token cache is returned unchanged. A failed options lookup is returned as the error. Otherwise the cache's options are exactly the defaults, then the caller's options, then the configured option when one is found, and the effective options are layered in that order. |
| ResolveBearerToken.TokenCacheDefaults | config/resolve_bearer_token.go:55-58 | With no caller or configured options, a new token cache refreshes 300 s before expiry and times out retrieval after 30 s. |
| ResolveBearerToken.BearerWrapIdempotent | config/resolve_bearer_token.go:44-47 | Wrapping an already wrapped token provider again gives the same provider. |
| ResolveBearerToken.ResolveBearerAuthTokenProvider | config/resolve_bearer_token.go:20-33 | It reports found exactly when a token provider was supplied and wrapping succeeded. The installed provider is the supplied one in a token cache. Credentials are never touched. |
| ResolveBearerToken.ResolvedTokenCacheOptions | config/resolve_bearer_token.go:20-65 | A supplied token provider that is not yet cached is installed in a token cache around it. The cache's refresh lead and retrieval timeout are the configured values where the configuration writes them, and 300 s and 30 s otherwise. |
| ResolveBearerToken.ResolveBearerIdempotent | config/resolve_bearer_token.go:20-33 | Resolving again on the configuration a resolution produced gives the same outcome. |
| IbmConstants.IsValid | credentials/ibmiam/ibm_constants.go:34-43 | It returns true exactly when the value equals one of the enum's four string fields. |
| IbmConstants.IBMProviderNames | credentials/ibmiam/ibm_constants.go:27-32 | The enum accepts exactly the four provider names. The empty string is not among them. The enum's log name is the same value as the logger constant, which Go writes as two identical literals. |
| IbmIam.EndPointOrDefault | credentials/ibmiam/common.go:54-57 | The endpoint used is the configured endpoint when one is given. Otherwise it is the default IAM endpoint `https://iam.cloud.ibm.com/identity/token`. |
| IbmIam.BearerCredentials | credentials/ibmiam/common.go:102-110 | Issued credentials carry the token as both bearer and session token, type `Bearer`, the provider's name as source, its service instance ID, and no access keys. |
| IbmIam.NewProvider | credentials/ibmiam/common.go:36-79 | An empty API key gives `IbmApiKeyIdNotFound` and stores no service instance. Otherwise the service instance is stored. The provider is valid iff the key is non-empty and the builder accepts the key with the (defaulted) endpoint; if it rejects them, the status is `IbmAuthenticatorError`. |
| IbmIam.Retrieve | credentials/ibmiam/common.go:81-111 | An errored provider returns its stored error, with only its name as source. A token failure gives the fixed `TokenManagerRetrieveError` and empty credentials. A token gives bearer credentials. It succeeds iff the provider is valid and the fetch succeeds. |
| IbmIam.IsValid | credentials/ibmiam/common.go:117-119 | A provider is valid exactly when construction stored no error. A valid, well-formed provider holds an API-key authenticator to ask for tokens. |
| IbmIam.AlwaysExpired | credentials/ibmiam/common.go:125-127 | Every provider reports itself as expired. |
| IbmIam.ErroredRetrieveIgnoresAuthenticator | credentials/ibmiam/common.go:85-88 | An errored provider's retrieval is the same whatever the token service would do. |
| IbmIam.TokenFailureRedacted | credentials/ibmiam/common.go:89-100 | Two token failures are reported identically, whatever the underlying errors were. |
| IbmIam.MissingApiKeyReported | credentials/ibmiam/common.go:42-50 | A provider built without an API key is invalid. Retrieving from it reports `IbmApiKeyIdNotFound` with the provider's name as source. |
| TrustedProfile.NewTrustedProfileProvider | credentials/ibmiam/trusted_profile.go:35-87 | The profile ID is checked before the token path; each missing one has its own error code. The service instance is stored only when both are present. The provider is valid iff both are present and the builder accepts them. |
| TrustedProfile.Retrieve | credentials/ibmiam/trusted_profile.go:89-121 | An errored provider returns its stored error with only its name as source. A token failure gives the fixed `TokenManagerRetrieveError` and empty credentials. A token from the container authenticator gives bearer credentials. This is the same retrieval the API-key provider uses. |
| TrustedProfile.ResourceTypeIgnored | credentials/ibmiam/trusted_profile.go:35-87 | The resource type has no effect on the provider built. |
| TrustedProfile.ProfileIDCheckedFirst | credentials/ibmiam/trusted_profile.go:47-65 | With both the ID and the path missing, retrieval reports only `trustedProfileIDNotFound`. |
| StaticProvider.NewStaticProvider | credentials/ibmiam/static_provider.go:7-9 | The result is an API-key provider named `StaticProviderIBM`. The endpoint and the key are not swapped, even though their parameter order differs from the generic constructor. |
| StaticProvider.StaticProviderArgumentOrder | credentials/ibmiam/static_provider.go:7-9 | The static constructor is the generic constructor named `StaticProviderIBM`, with its key and endpoint arguments passed in the generic order. |
| StaticProvider.NewStaticCredentials | credentials/ibmiam/static_provider.go:13-15 | It is the same provider as `NewStaticProvider`. An empty key makes it invalid with `IbmApiKeyIdNotFound`. |
| StaticProvider.NewTrustedProfileProviderCR | credentials/ibmiam/static_provider.go:19-21 | The result is a trusted-profile provider named `TrustedProfileProviderIBM` with resource type `CR`, built from the given ID and token path. |
| IbmCosSigner.SignHTTP | aws/signer/ibmiam/ibmiam_signer.go:37-79 | Signing fails exactly when the token is empty. The service instance header is added only when the request lacks one and the credentials name one, and it is added even on failure. On success the AWS signature headers are removed and Authorization is `<type> <token>`. No other header changes. |
| IbmCosSigner.SignIdempotent | aws/signer/ibmiam/ibmiam_signer.go:48-71 | Signing an already signed request again with the same credentials changes nothing. |
| IbmCosSigner.SignIgnoresRequestMetadata | aws/signer/ibmiam/ibmiam_signer.go:37-45 | The payload hash, service, region and signing time do not affect the outcome. |
| IbmCosSigner.BearerAuthorizationForm | aws/signer/ibmiam/ibmiam_signer.go:69-71 | A `Bearer` token yields the credentials form of section 2.1 of RFC 6750: `Bearer`, one space, then the token. |
| BearerFlow.RetrievedTokenAuthorizesRequest | credentials/ibmiam/common.go:102-110 | A valid provider's non-empty token, once signed, authorises the request as `Bearer <token>` and names the provider's service instance when the request did not name one. |
| BearerFlow.FailedRetrievalCannotSign | aws/signer/ibmiam/ibmiam_signer.go:58-60 | Credentials from a failed retrieval carry no token, so signing with them fails and leaves Authorization untouched. |

## Behaviour notes

- The comment on `isAllowedHost` mentions known ECS/EKS container addresses, but `isIPAllowed` accepts loopback addresses only (config/resolve_credentials.go:195-221). The model follows the code.
- Retrieval from an errored IAM provider returns the stored error unchanged. The provider's name appears only as the credentials' source (credentials/ibmiam/common.go:85-88).
- The stored error codes are `IbmApiKeyIdNotFound`, `IbmAuthenticatorError`, `trustedProfileIDNotFound` and `crTokenFilePathNotFound`. A failed token fetch reports `TokenManagerRetrieveError`. All of them are client faults (credentials/ibmiam/common.go:42-100, credentials/ibmiam/trusted_profile.go:47-109).
- In the configuration partition, a shared config given by pointer is taken only while no environment config has been seen, and it overwrites a shared config already chosen (config/resolve_credentials.go:328-331). `PointerBeforeEnvOverrides` and `PointerAfterEnvIgnored` state this.
- The process and instance-metadata branches of profile resolution only record provenance. The provider already in the configuration (usually none) is what gets wrapped in the cache (config/resolve_credentials.go:181-187, 143).

## Left out

- Logging, the standard logger and the context-carried middleware logger: they do not affect any result.
- The internals of the credentials cache and the token cache (expiry, refresh, single-flight, concurrency): only the provider they wrap and the options they are given are modelled. `ExpiryWindowJitterFrac` and the other floating-point cache options are not modelled.
- The shared-config lookups, the environment-config loader and the check that a profile holds only one credential type live in files that are not part of this model. Their results are inputs (`ConfigSources.Lookups` and the config records).
- Aws.EffectiveCacheOptions: states the option writes applied in order, not the options the cache finally runs with. The cache constructor in aws/credential_cache.go, which is not part of this model, afterwards raises a negative expiry window to zero. That normalisation is not modelled, so the window stated by `ResolveCredentials.WrapWithCredentialsCache` and `LocalHttpCredentials.ResolveHTTPCredProvider` is the written one.
- SmithyBearer.EffectiveTokenCacheOptions: likewise states the option writes applied in order; any normalisation inside the token cache constructor is not part of this model.
- `HasKeys` comes from aws/credentials.go, which is not part of this model. It is taken to mean both keys are non-empty.
- LocalHttpCredentials.ResolveHTTPCredProvider: the body of the endpoint provider's option function (authorization token, token-file reading, API options, retryer, provenance copy) is I/O and client plumbing. The model records only the URL and whether configured endpoint options were appended. For the same reason, `ResolveLocalHTTPCredProvider` takes no authorization token.
- The error texts built with `fmt.Errorf` around URL and host failures are modelled as distinct error constructors carrying the host and the cause, not as formatted strings.
- The web-identity and SSO branches are commented out in the code and are not modelled.
- The token exchange itself, the authenticator builders and the reading of the token file are external collaborators, passed in as `getToken` and `buildOk`.
- Header-name canonicalisation: headers are keyed by their canonical names.
- `NewIBMCOSSigner` and `WithLogger` only configure the signer's logger.
- Time values are whole seconds; `time.Duration` nanoseconds are not modelled.
- IbmIam.Retrieve: requires a well-formed provider. Go's `Retrieve` panics on the type assertion when `ErrorStatus` is nil and no authenticator is set (credentials/ibmiam/common.go:89). That happens for the zero-value `Provider{}`, or when a caller clears the exported `ErrorStatus`. The panic is not modelled.
- TrustedProfile.Retrieve: requires a well-formed provider, for the same reason. A nil `ErrorStatus` with no container authenticator panics at credentials/ibmiam/trusted_profile.go:99, and that panic is not modelled.
- Cyclic source-profile chains: `SharedConfig.source` is an inductive datatype, so a chain of source-profile links is always finite. On a cycle, Go's `resolveCredsFromProfile` (config/resolve_credentials.go:153-156) would recurse forever. Detecting cycles is the job of shared-config loading, which is not part of this model.

=== FILE: aws.dfy ===
/**
 * The SDK-wide types the credential layer works with: credential values,
 * credential providers (a closed set of variants), the credentials cache
 * and its options, and the client configuration the resolvers fill in.
 */
module Aws {
  import opened Wrappers
  import opened Errors
  import Options
  import opened SmithyBearer

  /** The decision points the resolution chain records as provenance. */
  datatype CredentialSource =
    | EnvVars
    | Profile
    | ProfileSourceProfile
    | ProfileNamedProvider
    | ProfileProcess
    | Process
    | HTTP
    | IMDS

  /** A bearer token as issued by the identity service. */
  datatype Token = Token(accessToken: string, tokenType: string)

  /** A credential value; every field is empty ("") when unset. */
  datatype Credentials = Credentials(
    accessKeyID: string,
    secretAccessKey: string,
    sessionToken: string,
    source: string,
    token: Token,
    serviceInstanceID: string)

  /** The zero credential value. */
  const EmptyCredentials := Credentials("", "", "", "", Token("", ""), "")

  /** Both halves of a static key pair are present. */
  predicate HasKeys(c: Credentials) {
    |c.accessKeyID| != 0 && |c.secretAccessKey| != 0
  }

  /** What a provider's retrieval returns: always a value, and possibly an error. */
  datatype Retrieved = Retrieved(credentials: Credentials, err: Option<Error>)

  /** Options of the credentials cache; the expiry window is in seconds. */
  datatype CredentialsCacheOptions = CredentialsCacheOptions(expiryWindow: int)

  /** One option function of the credentials cache, as the field it writes. */
  datatype CacheOption = CacheOption(expiryWindow: Option<int>)

  /** The credential providers the model distinguishes. */
  datatype CredentialsProvider =
      /** The nil provider. */
    | NoProvider
      /** Fixed credentials together with the provenance that chose them. */
    | StaticCredentialsProvider(value: Credentials, source: seq<CredentialSource>)
      /** The HTTP endpoint provider; records whether configured options were added. */
    | EndpointCredentialsProvider(url: string, withConfigOptions: bool)
      /** A provider handed in by the caller, opaque to the resolver. */
    | SuppliedProvider(name: string)
      /** The memoizing cache around another provider, with its option functions in order. */
    | CredentialsCache(provider: CredentialsProvider, optFns: seq<CacheOption>)

  /** The client configuration fields the resolvers write. */
  datatype Config = Config(credentials: CredentialsProvider, bearerAuthTokenProvider: TokenProvider)

  /** The expiry-window writes of a list of cache options, in order. */
  function ExpiryWindowWrites(optFns: seq<CacheOption>): (w: seq<Option<int>>)
    ensures |w| == |optFns|
    ensures forall i :: 0 <= i < |optFns| ==> w[i] == optFns[i].expiryWindow
  {
    seq(|optFns|, i requires 0 <= i < |optFns| => optFns[i].expiryWindow)
  }

  /**
   * The cache's option functions applied in order to the zero options. The
   * cache constructor's own adjustment of a negative window afterwards is
   * not part of this.
   */
  function EffectiveCacheOptions(optFns: seq<CacheOption>): (o: CredentialsCacheOptions)
    ensures o.expiryWindow == Options.LastWriter(0, ExpiryWindowWrites(optFns))
  {
    Options.FoldIsLastWriter(0, ExpiryWindowWrites(optFns));
    CredentialsCacheOptions(Options.Fold(0, ExpiryWindowWrites(optFns)))
  }

  /** An option appended after the others decides every field it writes. */
  lemma AppendedCacheOptionApplied(optFns: seq<CacheOption>, o: CacheOption)
    ensures EffectiveCacheOptions(optFns + [o]).expiryWindow
         == o.expiryWindow.GetOr(EffectiveCacheOptions(optFns).expiryWindow)
  {
    assert ExpiryWindowWrites(optFns + [o]) == ExpiryWindowWrites(optFns) + [o.expiryWindow];
    if o.expiryWindow.Some? {
      Options.LastWriterAppendSome(0, ExpiryWindowWrites(optFns), o.expiryWindow.value);
    } else {
      Options.LastWriterAppendNone(0, ExpiryWindowWrites(optFns));
    }
  }
}

/** The bearer-token provider types: token providers and the token cache options. */
module SmithyBearer {
  import opened Wrappers
  import Options

  /** Token cache options, in seconds. */
  datatype TokenCacheOptions = TokenCacheOptions(refreshBeforeExpires: int, retrieveBearerTokenTimeout: int)

  /** One option function of the token cache, as the fields it writes. */
  datatype TokenCacheOption = TokenCacheOption(refreshBeforeExpires: Option<int>, retrieveBearerTokenTimeout: Option<int>)

  /** The token providers the model distinguishes. */
  datatype TokenProvider =
      /** The nil token provider. */
    | NoTokenProvider
      /** A provider handed in by the caller, opaque to the resolver. */
    | SuppliedTokenProvider(name: string)
      /** The memoizing token cache around another provider, with its option functions in order. */
    | TokenCache(provider: TokenProvider, optFns: seq<TokenCacheOption>)

  function RefreshWrites(optFns: seq<TokenCacheOption>): (w: seq<Option<int>>)
    ensures |w| == |optFns|
    ensures forall i :: 0 <= i < |optFns| ==> w[i] == optFns[i].refreshBeforeExpires
  {
    seq(|optFns|, i requires 0 <= i < |optFns| => optFns[i].refreshBeforeExpires)
  }

  function TimeoutWrites(optFns: seq<TokenCacheOption>): (w: seq<Option<int>>)
    ensures |w| == |optFns|
    ensures forall i :: 0 <= i < |optFns| ==> w[i] == optFns[i].retrieveBearerTokenTimeout
  {
    seq(|optFns|, i requires 0 <= i < |optFns| => optFns[i].retrieveBearerTokenTimeout)
  }

  /** The token cache's option functions applied in order to the zero options. */
  function EffectiveTokenCacheOptions(optFns: seq<TokenCacheOption>): (o: TokenCacheOptions)
    ensures o.refreshBeforeExpires == Options.LastWriter(0, RefreshWrites(optFns))
    ensures o.retrieveBearerTokenTimeout == Options.LastWriter(0, TimeoutWrites(optFns))
  {
    Options.FoldIsLastWriter(0, RefreshWrites(optFns));
    Options.FoldIsLastWriter(0, TimeoutWrites(optFns));
    TokenCacheOptions(Options.Fold(0, RefreshWrites(optFns)), Options.Fold(0, TimeoutWrites(optFns)))
  }
}

=== FILE: bearer_flow.dfy ===
/**
 * What a request carries once IAM credentials are retrieved and the request
 * is signed with them.
 */
module BearerFlow {
  import opened Wrappers
  import opened Errors
  import opened Aws
  import opened IbmIam
  import opened IbmCosSigner

  /**
   * A valid API-key provider whose token fetch yields a non-empty token
   * produces a request authorised as "Bearer <token>", naming the provider's
   * service instance unless the request already names one.
   */
  lemma RetrievedTokenAuthorizesRequest(p: Provider, getToken: Authenticator -> Result<string, Error>,
                                        header: Header, payloadHash: string, service: string,
                                        region: string, signingTime: int)
    requires IbmIam.WellFormed(p) && IbmIam.IsValid(p)
    requires getToken(p.authenticator.value).Ok? && getToken(p.authenticator.value).value != ""
    ensures var creds := IbmIam.Retrieve(p, getToken);
            var signed := SignHTTP(creds.credentials, header, payloadHash, service, region, signingTime);
            && creds.err.None?
            && signed.err.None?
            && signed.header[AuthorizationHeader] == ["Bearer " + getToken(p.authenticator.value).value]
            && (Get(header, ServiceInstanceIDHeader) == "" && p.serviceInstanceID != "" ==>
                  signed.header[ServiceInstanceIDHeader] == [p.serviceInstanceID])
  {
    var t := getToken(p.authenticator.value).value;
    // The token type joined to the token by a space spells the Bearer scheme.
    assert BearerTokenType + " " + t == "Bearer " + t;
  }

  /**
   * Whenever retrieval fails, the credentials it returns carry no token, so
   * signing with them fails too and leaves every header but the service
   * instance ID untouched.
   */
  lemma FailedRetrievalCannotSign(p: Provider, getToken: Authenticator -> Result<string, Error>,
                                  header: Header, payloadHash: string, service: string,
                                  region: string, signingTime: int)
    requires IbmIam.WellFormed(p)
    requires IbmIam.Retrieve(p, getToken).err.Some?
    ensures var signed := SignHTTP(IbmIam.Retrieve(p, getToken).credentials, header, payloadHash, service, region, signingTime);
            && signed.err == Some(Errorf(NoBearerTokenMessage))
            && SameEntry(header, signed.header, AuthorizationHeader)
  {
  }
}

=== FILE: config_sources.dfy ===
/**
 * The configuration sources the resolvers read: the environment-derived
 * config, the shared-profile config (with its source-profile link), the
 * other programmatic sources, and the lookups that query them.
 */
module ConfigSources {
  import opened Wrappers
  import opened Errors
  import opened Aws
  import opened SmithyBearer

  /** Settings read from environment variables; only the static keys matter here. */
  datatype EnvConfig = EnvConfig(credentials: Credentials)

  const EmptyEnvConfig := EnvConfig(EmptyCredentials)

  /**
   * One shared profile. `source` is the profile whose credentials this one
   * is derived from; the link is inductive, so a chain of links is finite.
   */
  datatype SharedConfig = SharedConfig(
    source: Option<SharedConfig>,
    credentials: Credentials,
    credentialSource: string,
    credentialProcess: string)

  const EmptySharedConfig := SharedConfig(None, EmptyCredentials, "", "")

  /**
   * One element of the configuration list. Environment and shared configs
   * may be given by value or by (possibly nil) pointer; anything else is an
   * opaque programmatic source.
   */
  datatype ConfigSource =
    | EnvValue(env: EnvConfig)
    | EnvPointer(envPtr: Option<EnvConfig>)
    | SharedValue(shared: SharedConfig)
    | SharedPointer(sharedPtr: Option<SharedConfig>)
    | OtherSource(name: string)

  type Configs = seq<ConfigSource>

  /** The outcome of asking the configuration sources for one setting. */
  datatype Lookup<T> = NotFound | Found(value: T) | LookupError(error: Error)

  /** A configured option as the list of at most one option applied after the caller's. */
  function FoundOptions<T>(found: Lookup<T>): (r: seq<T>)
    ensures |r| <= 1
    ensures |r| == 1 <==> found.Found?
    ensures found.Found? ==> r[0] == found.value
  {
    if found.Found? then [found.value] else []
  }

  /**
   * The setting lookups over a configuration list. They scan configuration
   * sources the model does not see, so each is an oracle.
   */
  datatype Lookups = Lookups(
    credentialsProvider: Configs -> Lookup<CredentialsProvider>,
    credentialsCacheOptions: Configs -> Lookup<CacheOption>,
    sharedConfigProfile: Configs -> Lookup<string>,
    endpointCredentialProviderOptions: Configs -> Lookup<()>,
    bearerAuthTokenProvider: Configs -> Lookup<TokenProvider>,
    bearerAuthTokenCacheOptions: Configs -> Lookup<TokenCacheOption>)

  // ---------------------------------------------------------------------
  // Reference definitions of what the partition picks
  // ---------------------------------------------------------------------

  /** An element that supplies an environment config (a nil pointer does not). */
  predicate IsEnv(c: ConfigSource) {
    c.EnvValue? || (c.EnvPointer? && c.envPtr.Some?)
  }

  function EnvOf(c: ConfigSource): EnvConfig
    requires IsEnv(c)
  {
    if c.EnvValue? then c.env else c.envPtr.value
  }

  /** The position of the first element supplying an environment config, or the length. */
  function FirstEnvIndex(cfgs: Configs): (k: nat)
    ensures k <= |cfgs|
    ensures forall i :: 0 <= i < k ==> !IsEnv(cfgs[i])
    ensures k < |cfgs| ==> IsEnv(cfgs[k])
  {
    if |cfgs| == 0 then 0
    else if IsEnv(cfgs[0]) then 0
    else 1 + FirstEnvIndex(cfgs[1..])
  }

  /** The first environment config of the list, if any. */
  function FirstEnv(cfgs: Configs): Option<EnvConfig> {
    var k := FirstEnvIndex(cfgs);
    if k < |cfgs| then Some(EnvOf(cfgs[k])) else None
  }

  /** The first shared config given by value, if any. */
  function FirstSharedValue(cfgs: Configs): Option<SharedConfig> {
    if |cfgs| == 0 then None
    else if cfgs[0].SharedValue? then Some(cfgs[0].shared)
    else FirstSharedValue(cfgs[1..])
  }

  /** The position of the last shared-config pointer, if any. */
  function LastPointerIndex(cfgs: Configs): (j: Option<nat>)
    ensures j.Some? ==> j.value < |cfgs| && cfgs[j.value].SharedPointer?
    ensures j.Some? ==> forall i :: j.value < i < |cfgs| ==> !cfgs[i].SharedPointer?
    ensures j.None? ==> forall i :: 0 <= i < |cfgs| ==> !cfgs[i].SharedPointer?
  {
    if |cfgs| == 0 then None
    else if cfgs[|cfgs| - 1].SharedPointer? then Some(|cfgs| - 1)
    else LastPointerIndex(cfgs[..|cfgs| - 1])
  }

  /**
   * The shared config the partition keeps. A value is taken while none is
   * held; a pointer replaces the held config (even with nil) but only
   * before the first environment config. So the last pointer ahead of the
   * first environment config decides; after a nil one, the first later
   * value is taken.
   */
  function SharedChoice(cfgs: Configs): Option<SharedConfig> {
    var k := FirstEnvIndex(cfgs);
    ChoiceFrom(cfgs, LastPointerIndex(cfgs[..k]))
  }

  /** The shared choice given the position of the deciding pointer, if any. */
  function ChoiceFrom(cfgs: Configs, last: Option<nat>): Option<SharedConfig>
    requires last.Some? ==> last.value < |cfgs| && cfgs[last.value].SharedPointer?
  {
    match last
    case None => FirstSharedValue(cfgs)
    case Some(j) =>
      if cfgs[j].sharedPtr.Some? then cfgs[j].sharedPtr else FirstSharedValue(cfgs[j + 1..])
  }

  /** The programmatic sources, in their original order. */
  function Others(cfgs: Configs): (r: Configs)
    ensures forall i :: 0 <= i < |r| ==> r[i].OtherSource?
  {
    if |cfgs| == 0 then []
    else (if cfgs[0].OtherSource? then [cfgs[0]] else []) + Others(cfgs[1..])
  }

  // ---------------------------------------------------------------------
  // The partition as the source computes it: one pass, first match wins
  // ---------------------------------------------------------------------

  /** What the pass has picked so far; `None` is a nil pointer. */
  datatype Scan = Scan(env: Option<EnvConfig>, shared: Option<SharedConfig>, other: Configs)

  /** One iteration of the type switch. */
  function Step(st: Scan, c: ConfigSource): Scan {
    match c
    case EnvValue(e) => if st.env.None? then st.(env := Some(e)) else st
    case EnvPointer(p) => if st.env.None? then st.(env := p) else st
    case SharedValue(s) => if st.shared.None? then st.(shared := Some(s)) else st
    // the guard tests the environment config, not the shared one
    case SharedPointer(p) => if st.env.None? then st.(shared := p) else st
    case OtherSource(_) => st.(other := st.other + [c])
  }

  /** The state after the pass has seen all of `cfgs`. */
  function ScanAll(cfgs: Configs): Scan
    decreases |cfgs|
  {
    if |cfgs| == 0 then Scan(None, None, [])
    else Step(ScanAll(cfgs[..|cfgs| - 1]), cfgs[|cfgs| - 1])
  }

  /** The environment config, the shared config, and the remaining sources. */
  datatype AwsConfigSources = AwsConfigSources(env: EnvConfig, shared: SharedConfig, other: Configs)

  /**
   * Splits the configuration list: the first environment config wins, the
   * shared config follows `SharedChoice`, the rest keep their order, and a
   * missing environment or shared config becomes the empty one.
   */
  function GetAWSConfigSources(cfgs: Configs): (r: AwsConfigSources)
    ensures r.env == FirstEnv(cfgs).GetOr(EmptyEnvConfig)
    ensures r.shared == SharedChoice(cfgs).GetOr(EmptySharedConfig)
    ensures r.other == Others(cfgs)
  {
    ScanMatchesReferences(cfgs);
    var st := ScanAll(cfgs);
    AwsConfigSources(st.env.GetOr(EmptyEnvConfig), st.shared.GetOr(EmptySharedConfig), st.other)
  }

  // ---------------------------------------------------------------------
  // Proof that the pass computes the reference definitions
  // ---------------------------------------------------------------------

  lemma {:induction false} OthersAppend(s: Configs, x: ConfigSource)
    ensures Others(s + [x]) == Others(s) + (if x.OtherSource? then [x] else [])
    decreases |s|
  {
    if |s| == 0 {
      assert s + [x] == [x];
      assert [x][1..] == [];
    } else {
      assert (s + [x])[0] == s[0];
      assert (s + [x])[1..] == s[1..] + [x];
      OthersAppend(s[1..], x);
    }
  }

  lemma {:induction false} FirstSharedValueAppend(s: Configs, x: ConfigSource)
    ensures FirstSharedValue(s + [x]) ==
      if FirstSharedValue(s).Some? then FirstSharedValue(s)
      else if x.SharedValue? then Some(x.shared) else None
    decreases |s|
  {
    if |s| == 0 {
      assert s + [x] == [x];
      assert [x][1..] == [];
    } else {
      assert (s + [x])[0] == s[0];
      assert (s + [x])[1..] == s[1..] + [x];
      FirstSharedValueAppend(s[1..], x);
    }
  }

  lemma FirstEnvIndexAppend(s: Configs, x: ConfigSource)
    ensures FirstEnvIndex(s + [x]) ==
      if FirstEnvIndex(s) < |s| then FirstEnvIndex(s)
      else if IsEnv(x) then |s| else |s| + 1
  {
    var c := s + [x];
    var k, ks := FirstEnvIndex(c), FirstEnvIndex(s);
    assert forall i :: 0 <= i < |s| ==> c[i] == s[i];
    if ks < |s| {
      assert IsEnv(c[ks]);
    } else if IsEnv(x) {
      assert IsEnv(c[|s|]);
    }
  }

  /** The pass agrees with `FirstEnv` and `Others` one element further. */
  lemma StepMatchesEnvAndOthers(s: Configs, x: ConfigSource)
    requires ScanAll(s).env == FirstEnv(s)
    requires ScanAll(s).other == Others(s)
    ensures ScanAll(s + [x]).env == FirstEnv(s + [x])
    ensures ScanAll(s + [x]).other == Others(s + [x])
  {
    var c := s + [x];
    assert c[..|c| - 1] == s;
    OthersAppend(s, x);
    FirstEnvIndexAppend(s, x);
    var ks := FirstEnvIndex(s);
    if ks < |s| {
      assert c[ks] == s[ks];
    }
  }

  lemma ScanAllAppend(s: Configs, x: ConfigSource)
    ensures ScanAll(s + [x]) == Step(ScanAll(s), x)
  {
    var c := s + [x];
    assert c[..|c| - 1] == s;
  }

  /** Appending an element that is not a pointer, with the last pointer unchanged. */
  lemma ChoiceFromAppend(s: Configs, x: ConfigSource, last: Option<nat>)
    requires last.Some? ==> last.value < |s| && s[last.value].SharedPointer?
    ensures ChoiceFrom(s + [x], last) ==
      if ChoiceFrom(s, last).Some? then ChoiceFrom(s, last)
      else if x.SharedValue? then Some(x.shared) else None
  {
    var c := s + [x];
    FirstSharedValueAppend(s, x);
    match last
    case None =>
    case Some(j) =>
      assert c[j] == s[j];
      assert c[j + 1..] == s[j + 1..] + [x];
      FirstSharedValueAppend(s[j + 1..], x);
  }

  /** After an environment config was seen, the shared choice only follows values. */
  lemma StepSharedAfterEnv(s: Configs, x: ConfigSource)
    requires FirstEnvIndex(s) < |s|
    requires ScanAll(s).env == FirstEnv(s)
    requires ScanAll(s).shared == SharedChoice(s)
    ensures ScanAll(s + [x]).shared == SharedChoice(s + [x])
  {
    var c := s + [x];
    var st := ScanAll(s);
    ScanAllAppend(s, x);
    assert st.env.Some?;
    assert ScanAll(c).shared == if x.SharedValue? && st.shared.None? then Some(x.shared) else st.shared;
    FirstEnvIndexAppend(s, x);
    var k := FirstEnvIndex(s);
    assert FirstEnvIndex(c) == k;
    assert c[..k] == s[..k];
    var last := LastPointerIndex(s[..k]);
    ChoiceFromAppend(s, x, last);
  }

  /** An element other than a shared pointer changes the shared pick only by a value filling an empty slot. */
  lemma StepSharedNonPointer(st: Scan, x: ConfigSource)
    requires !x.SharedPointer?
    ensures Step(st, x).shared == if x.SharedValue? && st.shared.None? then Some(x.shared) else st.shared
  {
  }

  /** Appending an element that is not a pointer keeps the last pointer. */
  lemma LastPointerIndexAppend(s: Configs, x: ConfigSource)
    requires !x.SharedPointer?
    ensures LastPointerIndex(s + [x]) == LastPointerIndex(s)
  {
    var c := s + [x];
    assert c[..|c| - 1] == s;
  }

  /** Before any environment config, the last pointer of the whole list decides, one element further too. */
  lemma SharedChoiceBeforeEnvAppend(s: Configs, x: ConfigSource)
    requires FirstEnvIndex(s) == |s|
    requires !x.SharedPointer?
    ensures SharedChoice(s) == ChoiceFrom(s, LastPointerIndex(s))
    ensures SharedChoice(s + [x]) == ChoiceFrom(s + [x], LastPointerIndex(s))
  {
    var c := s + [x];
    assert s[..|s|] == s;
    FirstEnvIndexAppend(s, x);
    if IsEnv(x) {
      assert c[..FirstEnvIndex(c)] == s;
    } else {
      assert c[..FirstEnvIndex(c)] == c;
      LastPointerIndexAppend(s, x);
    }
  }

  /** Before any environment config, an element that is not a shared pointer keeps the last pointer. */
  lemma StepSharedBeforeEnv(s: Configs, x: ConfigSource)
    requires FirstEnvIndex(s) == |s|
    requires !x.SharedPointer?
    requires ScanAll(s).shared == SharedChoice(s)
    ensures ScanAll(s + [x]).shared == SharedChoice(s + [x])
  {
    ScanAllAppend(s, x);
    StepSharedNonPointer(ScanAll(s), x);
    SharedChoiceBeforeEnvAppend(s, x);
    ChoiceFromAppend(s, x, LastPointerIndex(s));
  }

  /** Before any environment config, a shared pointer becomes the choice. */
  lemma StepSharedPointerBeforeEnv(s: Configs, x: ConfigSource)
    requires FirstEnvIndex(s) == |s|
    requires x.SharedPointer?
    requires ScanAll(s).env == FirstEnv(s)
    ensures ScanAll(s + [x]).shared == SharedChoice(s + [x])
  {
    var c := s + [x];
    ScanAllAppend(s, x);
    FirstEnvIndexAppend(s, x);
    assert c[..|c|] == c;
    assert LastPointerIndex(c) == Some(|s|);
    assert c[|s| + 1..] == [];
  }

  /** One step of the pass agrees with the references, given it did so on the prefix. */
  lemma StepMatchesReferences(s: Configs, x: ConfigSource)
    requires ScanAll(s).env == FirstEnv(s)
    requires ScanAll(s).shared == SharedChoice(s)
    requires ScanAll(s).other == Others(s)
    ensures ScanAll(s + [x]).env == FirstEnv(s + [x])
    ensures ScanAll(s + [x]).shared == SharedChoice(s + [x])
    ensures ScanAll(s + [x]).other == Others(s + [x])
  {
    StepMatchesEnvAndOthers(s, x);
    if FirstEnvIndex(s) < |s| {
      StepSharedAfterEnv(s, x);
    } else if x.SharedPointer? {
      StepSharedPointerBeforeEnv(s, x);
    } else {
      StepSharedBeforeEnv(s, x);
    }
  }

  lemma {:induction false} ScanMatchesReferences(cfgs: Configs)
    ensures ScanAll(cfgs).env == FirstEnv(cfgs)
    ensures ScanAll(cfgs).shared == SharedChoice(cfgs)
    ensures ScanAll(cfgs).other == Others(cfgs)
    decreases |cfgs|
  {
    if |cfgs| > 0 {
      var s := cfgs[..|cfgs| - 1];
      ScanMatchesReferences(s);
      StepMatchesReferences(s, cfgs[|cfgs| - 1]);
      assert s + [cfgs[|cfgs| - 1]] == cfgs;
    }
  }

  // ---------------------------------------------------------------------
  // Consequences
  // ---------------------------------------------------------------------

  /** Without shared-config pointers the first shared config value wins. */
  lemma NoPointerFirstSharedValueWins(cfgs: Configs)
    requires forall i :: 0 <= i < |cfgs| ==> !cfgs[i].SharedPointer?
    ensures GetAWSConfigSources(cfgs).shared == FirstSharedValue(cfgs).GetOr(EmptySharedConfig)
  {
    var k := FirstEnvIndex(cfgs);
    assert LastPointerIndex(cfgs[..k]).None?;
  }

  /**
   * While no environment config has been seen, a shared-config pointer
   * replaces whatever shared config was picked before it, values included.
   */
  lemma PointerBeforeEnvOverrides(cfgs: Configs, p: SharedConfig)
    requires forall i :: 0 <= i < |cfgs| ==> !IsEnv(cfgs[i])
    ensures GetAWSConfigSources(cfgs + [SharedPointer(Some(p))]).shared == p
  {
    var c := cfgs + [SharedPointer(Some(p))];
    FirstEnvIndexAppend(cfgs, SharedPointer(Some(p)));
    assert c[..|c|] == c;
    assert LastPointerIndex(c) == Some(|cfgs|);
  }

  /** Once an environment config has been seen, a shared-config pointer changes nothing. */
  lemma PointerAfterEnvIgnored(cfgs: Configs, p: Option<SharedConfig>)
    requires exists i :: 0 <= i < |cfgs| && IsEnv(cfgs[i])
    ensures GetAWSConfigSources(cfgs + [SharedPointer(p)]) == GetAWSConfigSources(cfgs)
  {
    ScanMatchesReferences(cfgs);
    assert FirstEnvIndex(cfgs) < |cfgs|;
    ScanAllAppend(cfgs, SharedPointer(p));
  }
}

=== FILE: errors.dfy ===
/** The errors the credential layer produces or passes on. */
module Errors {

  /** Who is to blame for an API error. */
  datatype Fault = FaultUnknown | FaultServer | FaultClient

  datatype Error =
      /** A coded API error (code, message, fault). */
    | ApiError(code: string, message: string, fault: Fault)
      /** A plain formatted error carrying only a message. */
    | Errorf(message: string)
      /** "invalid URL, <cause>" from the local HTTP endpoint check. */
    | InvalidURL(cause: Error)
      /** "failed to resolve host <host>, <cause>". */
    | HostResolveFailed(host: string, cause: Error)
      /** "invalid endpoint host, <host>, only loopback/ecs/eks hosts are allowed". */
    | HostNotAllowed(host: string)
}

=== FILE: ibm_constants.dfy ===
/** Constants of the IBM IAM credential providers and the provider-name enum. */
module IbmConstants {

  /** The IAM token endpoint used when none is configured. */
  const DefaultAuthEndPoint := "https://iam.cloud.ibm.com/identity/token"
  const IbmIamProviderLog := "IBM IAM PROVIDER"
  const ProviderTypeOauth := "oauth"
  /** The resource type of a compute-resource trusted profile. */
  const ResourceComputeResource := "CR"

  /** The provider names, one string field each. */
  datatype ProviderEnum = ProviderEnum(
    staticProviderName: string,
    trustedProfileProviderName: string,
    ibmIamProviderLog: string,
    sharedConfProviderName: string)

  /** The enum instance with its values. */
  const IBMProvider := ProviderEnum(
    "StaticProviderIBM",
    "TrustedProfileProviderIBM",
    IbmIamProviderLog,
    "SharedConfigProviderIBM")

  /** The string fields of an enum value, in declaration order. */
  function Fields(p: ProviderEnum): (r: seq<string>)
    ensures |r| == 4
  {
    [p.staticProviderName, p.trustedProfileProviderName, p.ibmIamProviderLog, p.sharedConfProviderName]
  }

  /** `value` equals one of the enum's string fields: each field is visited in turn. */
  method IsValid(p: ProviderEnum, value: string) returns (r: bool)
    ensures r <==> (value == p.staticProviderName || value == p.trustedProfileProviderName
                    || value == p.ibmIamProviderLog || value == p.sharedConfProviderName)
  {
    var fields := Fields(p);
    var i := 0;
    while i < |fields|
      invariant 0 <= i <= |fields|
      invariant forall j :: 0 <= j < i ==> fields[j] != value
    {
      if fields[i] == value {
        return true;
      }
      i := i + 1;
    }
    assert value != fields[0] && value != fields[1] && value != fields[2] && value != fields[3];
    return false;
  }

  /**
   * The names the enum accepts are exactly the four provider names; the
   * empty string is not among them, and the log field is the log constant.
   */
  lemma IBMProviderNames(value: string)
    ensures (value == IBMProvider.staticProviderName || value == IBMProvider.trustedProfileProviderName
             || value == IBMProvider.ibmIamProviderLog || value == IBMProvider.sharedConfProviderName)
        <==> value in {"StaticProviderIBM", "TrustedProfileProviderIBM", "IBM IAM PROVIDER", "SharedConfigProviderIBM"}
    ensures value == "" ==> value !in Fields(IBMProvider)
    ensures IBMProvider.ibmIamProviderLog == IbmIamProviderLog
  {
  }
}

=== FILE: ibmiam_provider.dfy ===
/**
 * The IBM IAM API-key provider. Construction never fails: a missing API key
 * or an authenticator that cannot be built is stored as an error status,
 * which retrieval then reports. Retrieval exchanges the key for a bearer
 * token through the authenticator, a collaborator passed in as `getToken`.
 */
module IbmIam {
  import opened Wrappers
  import opened Errors
  import opened Aws
  import opened IbmConstants

  /** The settings an authenticator is built from. */
  datatype Authenticator =
    | IamAuthenticator(apiKey: string, url: string, disableSSLVerification: bool)
    | ContainerAuthenticator(crTokenFilename: string, iamProfileID: string, url: string, disableSSLVerification: bool)

  const ApiKeyNotFoundError := ApiError("IbmApiKeyIdNotFound", "IBM API Key Id not found", FaultClient)
  const AuthenticatorError := ApiError("IbmAuthenticatorError", "error creating authenticator", FaultClient)
  const TokenRetrieveError := ApiError("TokenManagerRetrieveError", "error retrieving the token", FaultClient)

  /** The token type of every issued token. */
  const BearerTokenType := "Bearer"

  /** The configured token endpoint, or the default one when none is configured. */
  function EndPointOrDefault(authEndPoint: string): (r: string)
    ensures r != ""
    ensures authEndPoint != "" ==> r == authEndPoint
    ensures authEndPoint == "" ==> r == DefaultAuthEndPoint
  {
    if authEndPoint == "" then DefaultAuthEndPoint else authEndPoint
  }

  /** The credential value of a successful retrieval: the token serves as bearer and session token. */
  function BearerCredentials(tokenValue: string, providerName: string, serviceInstanceID: string): (c: Credentials)
    ensures c.token == Token(tokenValue, BearerTokenType) && c.sessionToken == tokenValue
    ensures c.source == providerName && c.serviceInstanceID == serviceInstanceID
    ensures c.accessKeyID == "" && c.secretAccessKey == ""
  {
    EmptyCredentials.(token := Token(tokenValue, BearerTokenType), source := providerName,
                      serviceInstanceID := serviceInstanceID, sessionToken := tokenValue)
  }

  datatype Provider = Provider(
    providerName: string,
    providerType: string,
    authenticator: Option<Authenticator>,
    serviceInstanceID: string,
    errorStatus: Option<Error>)

  /** A provider without error status holds an API-key authenticator. */
  predicate WellFormed(p: Provider) {
    p.errorStatus.None? ==> p.authenticator.Some? && p.authenticator.value.IamAuthenticator?
  }

  /** A provider is valid when construction stored no error; a valid well-formed provider has an authenticator to ask. */
  predicate IsValid(p: Provider): (r: bool)
    ensures r <==> p.errorStatus.None?
    ensures r && WellFormed(p) ==> p.authenticator.Some? && p.authenticator.value.IamAuthenticator?
  {
    p.errorStatus.None?
  }

  /** Providers never report their credentials as still fresh. */
  predicate IsExpired(p: Provider) {
    true
  }

  /**
   * Builds a provider. An empty API key is recorded as `IbmApiKeyIdNotFound`
   * before anything else is stored; otherwise the service instance is kept,
   * the endpoint defaulted, and an authenticator that fails to build is
   * recorded as `IbmAuthenticatorError`. `buildOk` says whether the
   * authenticator builder accepts its settings.
   */
  function NewProvider(providerName: string, apiKey: string, authEndPoint: string, serviceInstanceID: string,
                       buildOk: Authenticator -> bool): (r: Provider)
    ensures WellFormed(r)
    ensures r.providerName == providerName && r.providerType == ProviderTypeOauth
    ensures apiKey == "" ==> r == Provider(providerName, ProviderTypeOauth, None, "", Some(ApiKeyNotFoundError))
    ensures apiKey != "" ==> r.serviceInstanceID == serviceInstanceID
    ensures IsValid(r) <==> apiKey != "" && buildOk(IamAuthenticator(apiKey, EndPointOrDefault(authEndPoint), true))
    ensures IsValid(r) ==> r.authenticator == Some(IamAuthenticator(apiKey, EndPointOrDefault(authEndPoint), true))
    ensures apiKey != "" && !IsValid(r) ==> r.errorStatus == Some(AuthenticatorError) && r.authenticator.None?
    ensures r.authenticator.Some? ==> r.authenticator.value.url != ""
  {
    var p := Provider(providerName, ProviderTypeOauth, None, "", None);
    if apiKey == "" then p.(errorStatus := Some(ApiKeyNotFoundError))
    else
      var p := p.(serviceInstanceID := serviceInstanceID);
      var endPoint := EndPointOrDefault(authEndPoint);
      var auth := IamAuthenticator(apiKey, endPoint, true);
      if !buildOk(auth) then p.(errorStatus := Some(AuthenticatorError))
      else p.(authenticator := Some(auth))
  }

  /**
   * The retrieval both IAM providers share, over the provider's stored
   * state: report a stored error, or exchange the authenticator's token.
   */
  function RetrieveWith(providerName: string, serviceInstanceID: string, errorStatus: Option<Error>,
                        authenticator: Option<Authenticator>, getToken: Authenticator -> Result<string, Error>): Retrieved
    requires errorStatus.None? ==> authenticator.Some?
  {
    if errorStatus.Some? then
      Retrieved(EmptyCredentials.(source := providerName), errorStatus)
    else
      match getToken(authenticator.value)
      case Err(_) => Retrieved(EmptyCredentials, Some(TokenRetrieveError))
      case Ok(tokenValue) => Retrieved(BearerCredentials(tokenValue, providerName, serviceInstanceID), None)
  }

  /**
   * Retrieves credentials. An errored provider returns only its name as the
   * source, with the stored error, and never calls the authenticator. A
   * failed token fetch returns empty credentials and a fixed error that does
   * not carry the underlying one. A fetched token becomes bearer credentials.
   */
  function Retrieve(p: Provider, getToken: Authenticator -> Result<string, Error>): (r: Retrieved)
    requires WellFormed(p)
    ensures p.errorStatus.Some? ==> r == Retrieved(EmptyCredentials.(source := p.providerName), p.errorStatus)
    ensures p.errorStatus.None? && getToken(p.authenticator.value).Err? ==>
      r == Retrieved(EmptyCredentials, Some(TokenRetrieveError))
    ensures p.errorStatus.None? && getToken(p.authenticator.value).Ok? ==>
      r == Retrieved(BearerCredentials(getToken(p.authenticator.value).value, p.providerName, p.serviceInstanceID), None)
    ensures r.err.None? <==> IsValid(p) && getToken(p.authenticator.value).Ok?
  {
    RetrieveWith(p.providerName, p.serviceInstanceID, p.errorStatus, p.authenticator, getToken)
  }

  /** Providers report themselves as expired whatever their state. */
  lemma AlwaysExpired(p: Provider)
    ensures IsExpired(p)
  {
  }

  /** An errored provider's retrieval does not depend on the authenticator at all. */
  lemma ErroredRetrieveIgnoresAuthenticator(p: Provider, g1: Authenticator -> Result<string, Error>,
                                            g2: Authenticator -> Result<string, Error>)
    requires WellFormed(p) && !IsValid(p)
    ensures Retrieve(p, g1) == Retrieve(p, g2)
  {
  }

  /** Two token failures are reported identically, whatever the underlying errors were. */
  lemma TokenFailureRedacted(p: Provider, g1: Authenticator -> Result<string, Error>,
                             g2: Authenticator -> Result<string, Error>)
    requires WellFormed(p) && IsValid(p)
    requires g1(p.authenticator.value).Err? && g2(p.authenticator.value).Err?
    ensures Retrieve(p, g1) == Retrieve(p, g2)
  {
  }

  /** A provider built without an API key reports `IbmApiKeyIdNotFound` and fetches nothing. */
  lemma MissingApiKeyReported(providerName: string, authEndPoint: string, serviceInstanceID: string,
                              buildOk: Authenticator -> bool, getToken: Authenticator -> Result<string, Error>)
    ensures var p := NewProvider(providerName, "", authEndPoint, serviceInstanceID, buildOk);
            && !IsValid(p)
            && Retrieve(p, getToken) == Retrieved(EmptyCredentials.(source := providerName), Some(ApiKeyNotFoundError))
  {
  }
}

=== FILE: ibmiam_signer.dfy ===
/**
 * The IBM COS request signer. Instead of an AWS signature, a request
 * carries the bearer token of its credentials in the Authorization header,
 * plus the service instance ID when the request does not name one yet.
 */
module IbmCosSigner {
  import opened Wrappers
  import opened Errors
  import opened Aws

  /** Request headers, keyed by their canonical names. */
  type Header = map<string, seq<string>>

  const ServiceInstanceIDHeader := "Ibm-Service-Instance-Id"
  const AuthorizationHeader := "Authorization"
  const AmzDateHeader := "X-Amz-Date"
  const AmzSecurityTokenHeader := "X-Amz-Security-Token"
  const AmzContentSha256Header := "X-Amz-Content-Sha256"
  const NoBearerTokenMessage := "no bearer token found in credentials"

  /** The headers signing may touch; every other header is left alone. */
  const SigningHeaders := {ServiceInstanceIDHeader, AuthorizationHeader, AmzDateHeader,
                           AmzSecurityTokenHeader, AmzContentSha256Header}

  /** The first value of a header, or empty when it is absent. */
  function Get(h: Header, key: string): string {
    if key in h && |h[key]| > 0 then h[key][0] else ""
  }

  /** Replaces all values of a header with one value. */
  function Set(h: Header, key: string, value: string): (r: Header)
    ensures Get(r, key) == value
    ensures forall k :: k != key ==> SameEntry(h, r, k)
  {
    h[key := [value]]
  }

  /** Removes a header. */
  function Del(h: Header, key: string): (r: Header)
    ensures key !in r && Get(r, key) == ""
    ensures forall k :: k != key ==> SameEntry(h, r, k)
  {
    h - {key}
  }

  /** Two header sets agree on one key: both lack it or both hold the same values. */
  predicate SameEntry(h1: Header, h2: Header, key: string) {
    (key in h1 <==> key in h2) && (key in h1 ==> h1[key] == h2[key])
  }

  /** The request's headers after signing, and the signing error if any. */
  datatype Signed = Signed(header: Header, err: Option<Error>)

  /**
   * Signs a request. The payload hash, service, region and signing time are
   * accepted and not used. The service instance ID is filled in even when
   * signing then fails for want of a token.
   */
  function SignHTTP(credentials: Credentials, header: Header, payloadHash: string, service: string,
                    region: string, signingTime: int): (r: Signed)
    ensures r.err.Some? <==> credentials.token.accessToken == ""
    ensures r.err.Some? ==> r.err == Some(Errorf(NoBearerTokenMessage))
    ensures Get(header, ServiceInstanceIDHeader) != "" || credentials.serviceInstanceID == "" ==>
      SameEntry(header, r.header, ServiceInstanceIDHeader)
    ensures Get(header, ServiceInstanceIDHeader) == "" && credentials.serviceInstanceID != "" ==>
      ServiceInstanceIDHeader in r.header && r.header[ServiceInstanceIDHeader] == [credentials.serviceInstanceID]
    ensures r.err.None? ==>
      && AmzDateHeader !in r.header && AmzSecurityTokenHeader !in r.header && AmzContentSha256Header !in r.header
      && AuthorizationHeader in r.header
      && r.header[AuthorizationHeader] == [credentials.token.tokenType + " " + credentials.token.accessToken]
    ensures r.err.Some? ==> forall k :: k != ServiceInstanceIDHeader ==> SameEntry(header, r.header, k)
    ensures forall k :: k !in SigningHeaders ==> SameEntry(header, r.header, k)
  {
    var tokenValue := credentials.token.accessToken;
    var tokenType := credentials.token.tokenType;
    var h := if Get(header, ServiceInstanceIDHeader) == "" && credentials.serviceInstanceID != ""
             then Set(header, ServiceInstanceIDHeader, credentials.serviceInstanceID)
             else header;
    if tokenValue == "" then
      Signed(h, Some(Errorf(NoBearerTokenMessage)))
    else
      var h := Del(Del(Del(Del(h, AuthorizationHeader), AmzDateHeader), AmzSecurityTokenHeader), AmzContentSha256Header);
      Signed(Set(h, AuthorizationHeader, tokenType + " " + tokenValue), None)
  }

  /** Signing twice with the same credentials gives the same outcome as signing once. */
  lemma SignIdempotent(credentials: Credentials, header: Header, payloadHash: string,
                          service: string, region: string, signingTime: int)
    ensures var once := SignHTTP(credentials, header, payloadHash, service, region, signingTime);
            SignHTTP(credentials, once.header, payloadHash, service, region, signingTime) == once
  {
  }

  /** The outcome depends only on the credentials and the headers. */
  lemma SignIgnoresRequestMetadata(credentials: Credentials, header: Header,
                                   payloadHash1: string, service1: string, region1: string, signingTime1: int,
                                   payloadHash2: string, service2: string, region2: string, signingTime2: int)
    ensures SignHTTP(credentials, header, payloadHash1, service1, region1, signingTime1)
         == SignHTTP(credentials, header, payloadHash2, service2, region2, signingTime2)
  {
  }

  /**
   * A Bearer token yields the credentials form of section 2.1 of RFC 6750:
   * the scheme, one space, then the token.
   */
  lemma BearerAuthorizationForm(credentials: Credentials, header: Header, payloadHash: string,
                                service: string, region: string, signingTime: int)
    requires credentials.token.tokenType == "Bearer" && credentials.token.accessToken != ""
    ensures var r := SignHTTP(credentials, header, payloadHash, service, region, signingTime);
            && r.err.None?
            && Get(r.header, AuthorizationHeader) == "Bearer " + credentials.token.accessToken
  {
  }
}

=== FILE: local_http.dfy ===
/**
 * Validation of a local HTTP credential endpoint. A plain `http` endpoint
 * is only accepted when its host is loopback: an IP literal must be a
 * loopback address, and a host name must resolve to loopback addresses
 * only. Address parsing, URL parsing and name lookup are collaborators
 * outside the model and are passed in as `Net`.
 */
module LocalHttpCredentials {
  import opened Wrappers
  import opened Errors
  import opened Aws
  import opened ConfigSources
  import opened ResolveCredentials

  /** A parsed IP address; only whether it is a loopback address matters. */
  datatype IP = IP(isLoopback: bool)

  /** The parts of a parsed URL the check reads. */
  datatype URL = URL(scheme: string, hostname: string)

  /** URL parsing, IP parsing and host-name lookup. */
  datatype Net = Net(
    parseURL: string -> Result<URL, Error>,
    parseIP: string -> Option<IP>,
    lookupHost: string -> Result<seq<string>, Error>)

  const NoHostMessage := "unable to parse host from local HTTP cred provider URL"

  /** The expiry window, in seconds, the endpoint provider's cache is given before configured options. */
  const EndpointExpiryWindow := 5 * 60

  /**
   * Whether an address may serve credentials: only loopback addresses are
   * accepted; no container address is admitted.
   */
  predicate IsIPAllowed(ip: IP): (r: bool)
    ensures r <==> ip.isLoopback
  {
    ip.isLoopback
  }

  /** An address that parses as an IP and is allowed. */
  predicate AddressAllowed(net: Net, addr: string) {
    net.parseIP(addr).Some? && IsIPAllowed(net.parseIP(addr).value)
  }

  /**
   * Reference verdict on a host: an IP literal is judged directly; a name is
   * allowed iff every address it resolves to is allowed (vacuously so when
   * it resolves to none); a failed lookup is an error.
   */
  function HostVerdict(net: Net, host: string): Result<bool, Error> {
    match net.parseIP(host)
    case Some(ip) => Ok(IsIPAllowed(ip))
    case None =>
      match net.lookupHost(host)
      case Err(e) => Err(e)
      case Ok(addrs) => Ok(forall i | 0 <= i < |addrs| :: AddressAllowed(net, addrs[i]))
  }

  /** Decides whether a host may serve credentials over plain HTTP. */
  method IsAllowedHost(host: string, net: Net) returns (allowed: bool, err: Option<Error>)
    ensures HostVerdict(net, host).Ok? ==> err.None? && allowed == HostVerdict(net, host).value
    ensures HostVerdict(net, host).Err? ==> !allowed && err == Some(HostVerdict(net, host).error)
  {
    var ip := net.parseIP(host);
    if ip.Some? {
      return IsIPAllowed(ip.value), None;
    }
    var lookup := net.lookupHost(host);
    if lookup.Err? {
      return false, Some(lookup.error);
    }
    var addrs := lookup.value;
    var i := 0;
    while i < |addrs|
      invariant 0 <= i <= |addrs|
      invariant forall j :: 0 <= j < i ==> AddressAllowed(net, addrs[j])
    {
      var a := net.parseIP(addrs[i]);
      if a.None? || !IsIPAllowed(a.value) {
        return false, None;
      }
      i := i + 1;
    }
    return true, None;
  }

  /**
   * Builds the endpoint provider and installs it wrapped in the cache with a
   * five-minute expiry window, which configured cache options may override.
   */
  function ResolveHTTPCredProvider(cfg: Config, url: string, configs: Configs, lk: Lookups): (r: Outcome)
    ensures r.cfg.bearerAuthTokenProvider == cfg.bearerAuthTokenProvider
    ensures lk.endpointCredentialProviderOptions(configs).LookupError? ==>
      r == Outcome(cfg, Some(lk.endpointCredentialProviderOptions(configs).error))
    ensures r.err.None? ==>
      && r.cfg.credentials.CredentialsCache?
      && r.cfg.credentials.provider
           == EndpointCredentialsProvider(url, lk.endpointCredentialProviderOptions(configs).Found?)
      && EffectiveCacheOptions(r.cfg.credentials.optFns).expiryWindow ==
           match lk.credentialsCacheOptions(configs)
           case Found(o) => o.expiryWindow.GetOr(EndpointExpiryWindow)
           case _ => EndpointExpiryWindow
    ensures r.err.Some? ==> r.cfg.credentials == cfg.credentials || r.cfg.credentials == NoProvider
  {
    match lk.endpointCredentialProviderOptions(configs)
    case LookupError(e) => Outcome(cfg, Some(e))
    case _ =>
      var provider := EndpointCredentialsProvider(url, lk.endpointCredentialProviderOptions(configs).Found?);
      match WrapWithCredentialsCache(configs, provider, [CacheOption(Some(EndpointExpiryWindow))], lk)
      case Err(e) => Outcome(cfg.(credentials := NoProvider), Some(e))
      case Ok(w) => Outcome(cfg.(credentials := w), None)
  }

  /**
   * Validates a local endpoint URL and only then builds its provider. An
   * unparsable URL or an empty host is an error; only the `http` scheme
   * triggers the host check. On any validation error no provider is built
   * and the configuration is left as it was.
   */
  method ResolveLocalHTTPCredProvider(cfg: Config, endpointURL: string, configs: Configs, lk: Lookups, net: Net)
    returns (r: Outcome)
    ensures net.parseURL(endpointURL).Err? ==>
      r == Outcome(cfg, Some(InvalidURL(net.parseURL(endpointURL).error)))
    ensures net.parseURL(endpointURL).Ok? && net.parseURL(endpointURL).value.hostname == "" ==>
      r == Outcome(cfg, Some(Errorf(NoHostMessage)))
    ensures net.parseURL(endpointURL).Ok? && net.parseURL(endpointURL).value.hostname != "" ==>
      var u := net.parseURL(endpointURL).value;
      && (u.scheme != "http" || HostVerdict(net, u.hostname) == Ok(true) ==>
            r == ResolveHTTPCredProvider(cfg, endpointURL, configs, lk))
      && (u.scheme == "http" && HostVerdict(net, u.hostname) == Ok(false) ==>
            r == Outcome(cfg, Some(HostNotAllowed(u.hostname))))
      && (u.scheme == "http" && HostVerdict(net, u.hostname).Err? ==>
            r == Outcome(cfg, Some(HostResolveFailed(u.hostname, HostVerdict(net, u.hostname).error))))
  {
    var parsed := net.parseURL(endpointURL);
    if parsed.Err? {
      return Outcome(cfg, Some(InvalidURL(parsed.error)));
    }
    var host := parsed.value.hostname;
    if |host| == 0 {
      return Outcome(cfg, Some(Errorf(NoHostMessage)));
    }
    if parsed.value.scheme == "http" {
      var allowed, err := IsAllowedHost(host, net);
      if err.Some? {
        return Outcome(cfg, Some(HostResolveFailed(host, err.value)));
      } else if !allowed {
        return Outcome(cfg, Some(HostNotAllowed(host)));
      }
    }
    r := ResolveHTTPCredProvider(cfg, endpointURL, configs, lk);
  }
}

=== FILE: options.dfy ===
/**
 * Option functions are applied in list order to one options record, so for
 * every field the last function that writes it decides its value. A function
 * is modelled per field as `Some(v)` (writes v) or `None` (leaves the field).
 */
module Options {
  import opened Wrappers

  /** Applies the setters in list order, as the option loops of the SDK do. */
  function Fold<T>(base: T, setters: seq<Option<T>>): T
    decreases |setters|
  {
    if |setters| == 0 then base
    else Fold(setters[0].GetOr(base), setters[1..])
  }

  /** Reference: the value of the last setter that writes, else the base. */
  function LastWriter<T>(base: T, setters: seq<Option<T>>): T
    decreases |setters|
  {
    if |setters| == 0 then base
    else if setters[|setters| - 1].Some? then setters[|setters| - 1].value
    else LastWriter(base, setters[..|setters| - 1])
  }

  /** Putting a setter in front acts like starting from the value it leaves. */
  lemma {:induction false} LastWriterCons<T>(base: T, x: Option<T>, rest: seq<Option<T>>)
    ensures LastWriter(base, [x] + rest) == LastWriter(x.GetOr(base), rest)
    decreases |rest|
  {
    if |rest| == 0 {
      assert [x] + rest == [x];
      assert [x][..0] == [];
    } else {
      var s := [x] + rest;
      assert s[|s| - 1] == rest[|rest| - 1];
      assert s[..|s| - 1] == [x] + rest[..|rest| - 1];
      if rest[|rest| - 1].None? {
        LastWriterCons(base, x, rest[..|rest| - 1]);
      }
    }
  }

  /** Applying the setters in order leaves every field to its last writer. */
  lemma {:induction false} FoldIsLastWriter<T>(base: T, setters: seq<Option<T>>)
    ensures Fold(base, setters) == LastWriter(base, setters)
    decreases |setters|
  {
    if |setters| > 0 {
      FoldIsLastWriter(setters[0].GetOr(base), setters[1..]);
      assert setters == [setters[0]] + setters[1..];
      LastWriterCons(base, setters[0], setters[1..]);
    }
  }

  /** A setter appended at the end overrides everything before it. */
  lemma LastWriterAppendSome<T>(base: T, setters: seq<Option<T>>, v: T)
    ensures LastWriter(base, setters + [Some(v)]) == v
  {
    var s := setters + [Some(v)];
    assert s[|s| - 1] == Some(v);
  }

  /** A trailing setter that does not write leaves the result of the others. */
  lemma LastWriterAppendNone<T>(base: T, setters: seq<Option<T>>)
    ensures LastWriter(base, setters + [None]) == LastWriter(base, setters)
  {
    var s := setters + [None];
    assert s[..|s| - 1] == setters;
  }

  /**
   * Defaults first, then a middle list, then one optional last setter: the
   * last setter decides if it writes, else the middle list over the defaults.
   */
  lemma LayeredWriters<T>(base: T, first: T, middle: seq<Option<T>>, last: seq<Option<T>>)
    requires |last| <= 1
    ensures LastWriter(base, [Some(first)] + middle + last) ==
      if |last| == 1 && last[0].Some? then last[0].value else LastWriter(first, middle)
  {
    LastWriterCons(base, Some(first), middle + last);
    assert [Some(first)] + middle + last == [Some(first)] + (middle + last);
    if |last| == 1 {
      assert last == [last[0]];
      if last[0].Some? {
        LastWriterAppendSome(first, middle, last[0].value);
      } else {
        LastWriterAppendNone(first, middle);
      }
    } else {
      assert middle + last == middle;
    }
  }
}

=== FILE: provenance.dfy ===
/**
 * Provenance: the ordered list of credential sources a resolution attempt
 * passed through, carried on the request context. The context is modelled
 * as the one value it carries here: the list, absent until the first tag.
 */
module Provenance {
  import opened Wrappers
  import opened Aws

  datatype Context = Context(sources: Option<seq<CredentialSource>>)

  /** A context that carries no provenance yet. */
  const Background := Context(None)

  /** The tags recorded so far, empty when none. */
  function Sources(ctx: Context): seq<CredentialSource> {
    ctx.sources.GetOr([])
  }

  /** `later` keeps every tag of `earlier`, in order, and may add more after them. */
  predicate Extends(earlier: Context, later: Context) {
    var e, l := Sources(earlier), Sources(later);
    |e| <= |l| && l[..|e|] == e
  }

  /** Records one more decision point: a fresh list on first use, else appended. */
  function AddCredentialSource(ctx: Context, source: CredentialSource): (r: Context)
    ensures r.sources.Some?
    ensures Sources(r) == Sources(ctx) + [source]
    ensures Extends(ctx, r)
  {
    match ctx.sources
    case None => Context(Some([source]))
    case Some(existing) => Context(Some(existing + [source]))
  }

  /** The recorded tags; reading them before any tag was recorded is a run-time fault. */
  function GetCredentialSources(ctx: Context): (r: seq<CredentialSource>)
    requires ctx.sources.Some?
    ensures r == Sources(ctx)
  {
    ctx.sources.value
  }

  /** Extension is transitive, so a chain of additions only ever grows the list. */
  lemma ExtendsTransitive(a: Context, b: Context, c: Context)
    requires Extends(a, b) && Extends(b, c)
    ensures Extends(a, c)
  {
    var sa, sb, sc := Sources(a), Sources(b), Sources(c);
    assert sc[..|sa|] == sc[..|sb|][..|sa|];
  }

  /** `n` copies of one tag. */
  function Repeat(source: CredentialSource, n: nat): (r: seq<CredentialSource>)
    ensures |r| == n
    ensures forall i :: 0 <= i < n ==> r[i] == source
  {
    if n == 0 then [] else [source] + Repeat(source, n - 1)
  }

  /** Adds the same tag `n` times. */
  function AddRepeated(ctx: Context, source: CredentialSource, n: nat): (r: Context)
    ensures n > 0 ==> r.sources.Some?
    ensures Sources(r) == Sources(ctx) + Repeat(source, n)
    decreases n
  {
    if n == 0 then ctx
    else
      var r := AddRepeated(AddCredentialSource(ctx, source), source, n - 1);
      assert Sources(ctx) + Repeat(source, n) == Sources(ctx) + [source] + Repeat(source, n - 1);
      r
  }
}

=== FILE: resolve_bearer_token.dfy ===
/**
 * Resolution of the bearer-token provider: a supplied token provider is
 * installed wrapped in the token cache. The cache options are layered:
 * the defaults, then the caller's options, then the configured options,
 * so each later layer overrides the earlier ones.
 */
module ResolveBearerToken {
  import opened Wrappers
  import opened Errors
  import opened Aws
  import opened SmithyBearer
  import Options
  import opened ConfigSources
  import opened ResolveCredentials

  /** Refresh five minutes before the token expires. */
  const DefaultRefreshBeforeExpires := 5 * 60

  /** Give up on a token retrieval after thirty seconds. */
  const DefaultRetrieveBearerTokenTimeout := 30

  /** The option applied first to every new token cache. */
  const DefaultTokenCacheOption :=
    TokenCacheOption(Some(DefaultRefreshBeforeExpires), Some(DefaultRetrieveBearerTokenTimeout))

  /**
   * Reference for one field of a new cache's options: the configured write
   * if there is one, else the caller's last write, else the default.
   */
  function Layered(default: int, callerWrites: seq<Option<int>>, configuredWrites: seq<Option<int>>): int {
    if |configuredWrites| > 0 && configuredWrites[|configuredWrites| - 1].Some? then
      configuredWrites[|configuredWrites| - 1].value
    else
      Options.LastWriter(default, callerWrites)
  }

  /** Defaults, caller options, configured options: the effective options of a new cache. */
  lemma TokenCacheOptionLayers(optFns: seq<TokenCacheOption>, configured: seq<TokenCacheOption>)
    requires |configured| <= 1
    ensures var eff := EffectiveTokenCacheOptions([DefaultTokenCacheOption] + optFns + configured);
      && eff.refreshBeforeExpires ==
           Layered(DefaultRefreshBeforeExpires, RefreshWrites(optFns), RefreshWrites(configured))
      && eff.retrieveBearerTokenTimeout ==
           Layered(DefaultRetrieveBearerTokenTimeout, TimeoutWrites(optFns), TimeoutWrites(configured))
  {
    var all := [DefaultTokenCacheOption] + optFns + configured;
    assert RefreshWrites(all) == [Some(DefaultRefreshBeforeExpires)] + RefreshWrites(optFns) + RefreshWrites(configured);
    assert TimeoutWrites(all) == [Some(DefaultRetrieveBearerTokenTimeout)] + TimeoutWrites(optFns) + TimeoutWrites(configured);
    Options.LayeredWriters(0, DefaultRefreshBeforeExpires, RefreshWrites(optFns), RefreshWrites(configured));
    Options.LayeredWriters(0, DefaultRetrieveBearerTokenTimeout, TimeoutWrites(optFns), TimeoutWrites(configured));
  }

  /**
   * Wraps a token provider in the token cache unless it already is one.
   * A failed lookup of the configured options is returned and no cache is built.
   */
  function WrapWithBearerAuthTokenCache(configs: Configs, provider: TokenProvider,
                                        optFns: seq<TokenCacheOption>, lk: Lookups): (r: Result<TokenProvider, Error>)
    ensures provider.TokenCache? ==> r == Ok(provider)
    ensures r.Ok? ==> r.value.TokenCache?
    ensures r.Err? <==> !provider.TokenCache? && lk.bearerAuthTokenCacheOptions(configs).LookupError?
    ensures r.Err? ==> r.error == lk.bearerAuthTokenCacheOptions(configs).error
    ensures r.Ok? && !provider.TokenCache? ==>
      && r.value.provider == provider
      && r.value.optFns == [DefaultTokenCacheOption] + optFns + FoundOptions(lk.bearerAuthTokenCacheOptions(configs))
    ensures r.Ok? && !provider.TokenCache? ==>
      var eff := EffectiveTokenCacheOptions(r.value.optFns);
      var configured := FoundOptions(lk.bearerAuthTokenCacheOptions(configs));
      && eff.refreshBeforeExpires ==
           Layered(DefaultRefreshBeforeExpires, RefreshWrites(optFns), RefreshWrites(configured))
      && eff.retrieveBearerTokenTimeout ==
           Layered(DefaultRetrieveBearerTokenTimeout, TimeoutWrites(optFns), TimeoutWrites(configured))
  {
    if provider.TokenCache? then Ok(provider)
    else
      match lk.bearerAuthTokenCacheOptions(configs)
      case LookupError(e) => Err(e)
      case _ =>
        var configured := FoundOptions(lk.bearerAuthTokenCacheOptions(configs));
        var opts := [DefaultTokenCacheOption] + optFns + configured;
        TokenCacheOptionLayers(optFns, configured);
        Ok(TokenCache(provider, opts))
  }

  /** With no caller or configured overrides the cache refreshes 5 minutes early and times out after 30 seconds. */
  lemma TokenCacheDefaults(configs: Configs, provider: TokenProvider, lk: Lookups)
    requires !provider.TokenCache?
    requires lk.bearerAuthTokenCacheOptions(configs).NotFound?
    ensures WrapWithBearerAuthTokenCache(configs, provider, [], lk).Ok?
    ensures EffectiveTokenCacheOptions(WrapWithBearerAuthTokenCache(configs, provider, [], lk).value.optFns)
         == TokenCacheOptions(DefaultRefreshBeforeExpires, DefaultRetrieveBearerTokenTimeout)
  {
  }

  /** Wrapping twice is wrapping once. */
  lemma BearerWrapIdempotent(configs: Configs, provider: TokenProvider, optFns: seq<TokenCacheOption>,
                             more: seq<TokenCacheOption>, lk: Lookups)
    requires WrapWithBearerAuthTokenCache(configs, provider, optFns, lk).Ok?
    ensures WrapWithBearerAuthTokenCache(configs, WrapWithBearerAuthTokenCache(configs, provider, optFns, lk).value, more, lk)
         == WrapWithBearerAuthTokenCache(configs, provider, optFns, lk)
  {
  }

  /**
   * Looks for a supplied token provider and installs it wrapped in the token
   * cache. Reports whether one was installed; when none is found the
   * configuration is left untouched.
   */
  function ResolveBearerAuthTokenProvider(cfg: Config, configs: Configs, lk: Lookups): (r: (bool, Outcome))
    ensures r.1.cfg.credentials == cfg.credentials
    ensures r.0 <==> lk.bearerAuthTokenProvider(configs).Found? && r.1.err.None?
    ensures r.0 ==> WrapWithBearerAuthTokenCache(configs, lk.bearerAuthTokenProvider(configs).value, [], lk)
                    == Ok(r.1.cfg.bearerAuthTokenProvider)
    ensures r.0 ==> r.1.cfg.bearerAuthTokenProvider.TokenCache?
    ensures lk.bearerAuthTokenProvider(configs).NotFound? ==> r.1 == Outcome(cfg, None)
    ensures lk.bearerAuthTokenProvider(configs).LookupError? ==>
      r.1 == Outcome(cfg, Some(lk.bearerAuthTokenProvider(configs).error))
    ensures lk.bearerAuthTokenProvider(configs).Found? && r.1.err.Some? ==>
      r.1.cfg.bearerAuthTokenProvider == NoTokenProvider
  {
    match lk.bearerAuthTokenProvider(configs)
    case NotFound => (false, Outcome(cfg, None))
    case LookupError(e) => (false, Outcome(cfg, Some(e)))
    case Found(p) =>
      match WrapWithBearerAuthTokenCache(configs, p, [], lk)
      case Err(e) => (false, Outcome(cfg.(bearerAuthTokenProvider := NoTokenProvider), Some(e)))
      case Ok(w) => (true, Outcome(cfg.(bearerAuthTokenProvider := w), None))
  }

  /**
   * Resolving again on the configuration a resolution produced changes
   * nothing: a supplied provider comes back already cached, and every other
   * outcome depends only on the lookups.
   */
  lemma ResolveBearerIdempotent(cfg: Config, configs: Configs, lk: Lookups)
    ensures var once := ResolveBearerAuthTokenProvider(cfg, configs, lk);
            ResolveBearerAuthTokenProvider(once.1.cfg, configs, lk) == once
  {
  }

  /**
   * A supplied provider that is not yet cached ends up in a token cache
   * whose refresh lead and retrieval timeout are the configured ones when
   * the configuration writes them, and the defaults otherwise.
   */
  lemma ResolvedTokenCacheOptions(cfg: Config, configs: Configs, lk: Lookups)
    requires lk.bearerAuthTokenProvider(configs).Found?
    requires !lk.bearerAuthTokenProvider(configs).value.TokenCache?
    requires !lk.bearerAuthTokenCacheOptions(configs).LookupError?
    ensures var r := ResolveBearerAuthTokenProvider(cfg, configs, lk);
      && r.0
      && r.1.cfg.bearerAuthTokenProvider.TokenCache?
      && r.1.cfg.bearerAuthTokenProvider.provider == lk.bearerAuthTokenProvider(configs).value
      && EffectiveTokenCacheOptions(r.1.cfg.bearerAuthTokenProvider.optFns) ==
           match lk.bearerAuthTokenCacheOptions(configs)
           case Found(o) =>
             TokenCacheOptions(o.refreshBeforeExpires.GetOr(DefaultRefreshBeforeExpires),
                               o.retrieveBearerTokenTimeout.GetOr(DefaultRetrieveBearerTokenTimeout))
           case _ => TokenCacheOptions(DefaultRefreshBeforeExpires, DefaultRetrieveBearerTokenTimeout)
  {
  }
}

=== FILE: resolve_credentials.dfy ===
/**
 * The credential resolution chain: an explicitly supplied provider wins;
 * otherwise a precedence switch picks a programmatically set profile, the
 * environment's static keys, or the profile fallback. Every chosen
 * provider is wrapped in the credentials cache, and every decision point
 * is recorded, in order, as provenance.
 */
module ResolveCredentials {
  import opened Wrappers
  import opened Errors
  import opened Aws
  import opened Provenance
  import opened ConfigSources

  /** The only credential source resolved here. */
  const CredSourceEnvironment := "Environment"

  const CredSourceErrorMessage := "credential_source values must be EcsContainer, Ec2InstanceMetadata, or Environment"

  /** The configuration after a resolver wrote to it, and the error it returned. */
  datatype Outcome = Outcome(cfg: Config, err: Option<Error>)

  /** Profile resolution also hands back the context carrying the provenance. */
  datatype ProfileOutcome = ProfileOutcome(ctx: Context, cfg: Config, err: Option<Error>)

  // ---------------------------------------------------------------------
  // Cache wrapping
  // ---------------------------------------------------------------------

  /**
   * Wraps a provider in the credentials cache unless it already is one. The
   * cache gets the caller's options followed by the configured options, so
   * the configured ones are applied last and win.
   */
  function WrapWithCredentialsCache(configs: Configs, provider: CredentialsProvider,
                                    optFns: seq<CacheOption>, lk: Lookups): (r: Result<CredentialsProvider, Error>)
    ensures provider.CredentialsCache? ==> r == Ok(provider)
    ensures r.Ok? ==> r.value.CredentialsCache?
    ensures r.Err? <==> !provider.CredentialsCache? && lk.credentialsCacheOptions(configs).LookupError?
    ensures r.Err? ==> r.error == lk.credentialsCacheOptions(configs).error
    ensures r.Ok? && !provider.CredentialsCache? ==>
      && r.value.provider == provider
      && r.value.optFns == optFns + FoundOptions(lk.credentialsCacheOptions(configs))
    ensures r.Ok? && !provider.CredentialsCache? ==>
      EffectiveCacheOptions(r.value.optFns).expiryWindow ==
        match lk.credentialsCacheOptions(configs)
        case Found(o) => o.expiryWindow.GetOr(EffectiveCacheOptions(optFns).expiryWindow)
        case _ => EffectiveCacheOptions(optFns).expiryWindow
  {
    if provider.CredentialsCache? then Ok(provider)
    else
      match lk.credentialsCacheOptions(configs)
      case LookupError(e) => Err(e)
      case NotFound =>
        assert optFns + [] == optFns;
        Ok(CredentialsCache(provider, optFns))
      case Found(o) =>
        AppendedCacheOptionApplied(optFns, o);
        Ok(CredentialsCache(provider, optFns + [o]))
  }

  /** Wrapping twice is wrapping once. */
  lemma WrapIdempotent(configs: Configs, provider: CredentialsProvider, optFns: seq<CacheOption>,
                       more: seq<CacheOption>, lk: Lookups)
    requires WrapWithCredentialsCache(configs, provider, optFns, lk).Ok?
    ensures WrapWithCredentialsCache(configs, WrapWithCredentialsCache(configs, provider, optFns, lk).value, more, lk)
         == WrapWithCredentialsCache(configs, provider, optFns, lk)
  {
  }

  // ---------------------------------------------------------------------
  // Profile resolution
  // ---------------------------------------------------------------------

  /** Resolves a named credential source; only the environment is supported. */
  function ResolveCredsFromSource(ctx: Context, cfg: Config, env: EnvConfig, shared: SharedConfig): (r: ProfileOutcome)
    ensures r.err.None? <==> shared.credentialSource == CredSourceEnvironment
    ensures r.err.Some? ==> r.err == Some(Errorf(CredSourceErrorMessage)) && r.ctx == ctx && r.cfg == cfg
    ensures r.err.None? ==>
      && Sources(r.ctx) == Sources(ctx) + [HTTP]
      && r.cfg == cfg.(credentials := StaticCredentialsProvider(env.credentials, Sources(r.ctx)))
  {
    if shared.credentialSource == CredSourceEnvironment then
      var ctx' := AddCredentialSource(ctx, HTTP);
      ProfileOutcome(ctx', cfg.(credentials := StaticCredentialsProvider(env.credentials, GetCredentialSources(ctx'))), None)
    else
      ProfileOutcome(ctx, cfg, Some(Errorf(CredSourceErrorMessage)))
  }

  /**
   * Resolves credentials from a profile, first match wins: a source profile
   * (recurse into it), static keys, a named credential source, a credential
   * process, and otherwise instance metadata. The process and metadata
   * branches only record provenance; they install no provider.
   */
  function ResolveCredsFromProfile(ctx: Context, cfg: Config, env: EnvConfig, shared: SharedConfig): (r: ProfileOutcome)
    ensures r.ctx.sources.Some?
    ensures Extends(ctx, r.ctx) && |Sources(r.ctx)| > |Sources(ctx)|
    ensures r.cfg.bearerAuthTokenProvider == cfg.bearerAuthTokenProvider
    ensures r.err.Some? ==> r.cfg == cfg
    ensures r.cfg.credentials == cfg.credentials
         || (r.cfg.credentials.StaticCredentialsProvider? && r.cfg.credentials.source == Sources(r.ctx))
    decreases shared
  {
    if shared.source.Some? then
      var ctx' := AddCredentialSource(ctx, ProfileSourceProfile);
      var r := ResolveCredsFromProfile(ctx', cfg, env, shared.source.value);
      ExtendsTransitive(ctx, ctx', r.ctx);
      r
    else if HasKeys(shared.credentials) then
      var ctx' := AddCredentialSource(ctx, Profile);
      ProfileOutcome(ctx', cfg.(credentials := StaticCredentialsProvider(shared.credentials, GetCredentialSources(ctx'))), None)
    else if |shared.credentialSource| != 0 then
      var ctx' := AddCredentialSource(ctx, ProfileNamedProvider);
      var r := ResolveCredsFromSource(ctx', cfg, env, shared);
      if r.err.None? then ExtendsTransitive(ctx, ctx', r.ctx); r else r
    else if |shared.credentialProcess| != 0 then
      var ctx' := AddCredentialSource(ctx, ProfileProcess);
      var ctx'' := AddCredentialSource(ctx', Process);
      ExtendsTransitive(ctx, ctx', ctx'');
      ProfileOutcome(ctx'', cfg, None)
    else
      ProfileOutcome(AddCredentialSource(ctx, IMDS), cfg, None)
  }

  /** How many source-profile links lead from a profile to the one that supplies credentials. */
  function Depth(shared: SharedConfig): nat
    decreases shared
  {
    if shared.source.Some? then 1 + Depth(shared.source.value) else 0
  }

  /** The profile at the end of the source-profile links. */
  function Terminal(shared: SharedConfig): (t: SharedConfig)
    ensures t.source.None?
    decreases shared
  {
    if shared.source.Some? then Terminal(shared.source.value) else shared
  }

  /** The tags a profile without a source link adds, by the branch it selects. */
  function TerminalTags(t: SharedConfig): seq<CredentialSource> {
    if HasKeys(t.credentials) then [Profile]
    else if t.credentialSource == CredSourceEnvironment then [ProfileNamedProvider, HTTP]
    else if t.credentialSource != "" then [ProfileNamedProvider]
    else if t.credentialProcess != "" then [ProfileProcess, Process]
    else [IMDS]
  }

  /**
   * A chain of source-profile links only adds one tag per link: resolving a
   * profile is resolving its terminal profile with those tags already recorded.
   */
  lemma {:induction false} SourceChainTransparent(ctx: Context, cfg: Config, env: EnvConfig, shared: SharedConfig)
    ensures ResolveCredsFromProfile(ctx, cfg, env, shared)
         == ResolveCredsFromProfile(AddRepeated(ctx, ProfileSourceProfile, Depth(shared)), cfg, env, Terminal(shared))
    decreases shared
  {
    if shared.source.Some? {
      SourceChainTransparent(AddCredentialSource(ctx, ProfileSourceProfile), cfg, env, shared.source.value);
    }
  }

  /**
   * The full provenance of profile resolution: one `profile-source-profile`
   * per link, then the tags of the branch the terminal profile selects.
   */
  lemma ProfileProvenance(ctx: Context, cfg: Config, env: EnvConfig, shared: SharedConfig)
    ensures Sources(ResolveCredsFromProfile(ctx, cfg, env, shared).ctx)
         == Sources(ctx) + Repeat(ProfileSourceProfile, Depth(shared)) + TerminalTags(Terminal(shared))
  {
    SourceChainTransparent(ctx, cfg, env, shared);
    var ctx' := AddRepeated(ctx, ProfileSourceProfile, Depth(shared));
    var t := Terminal(shared);
    if !HasKeys(t.credentials) && t.credentialSource != "" && t.credentialSource != CredSourceEnvironment {
      assert Sources(ResolveCredsFromProfile(ctx', cfg, env, t).ctx) == Sources(ctx') + [ProfileNamedProvider];
    }
  }

  /** What the terminal profile installs: its own keys, the environment's keys, an error, or nothing. */
  lemma ProfileProvider(ctx: Context, cfg: Config, env: EnvConfig, shared: SharedConfig)
    ensures var r := ResolveCredsFromProfile(ctx, cfg, env, shared);
            var t := Terminal(shared);
            && (HasKeys(t.credentials) ==>
                  r.err.None? && r.cfg.credentials == StaticCredentialsProvider(t.credentials, Sources(r.ctx)))
            && (!HasKeys(t.credentials) && t.credentialSource == CredSourceEnvironment ==>
                  r.err.None? && r.cfg.credentials == StaticCredentialsProvider(env.credentials, Sources(r.ctx)))
            && (!HasKeys(t.credentials) && t.credentialSource != "" && t.credentialSource != CredSourceEnvironment ==>
                  r.err == Some(Errorf(CredSourceErrorMessage)) && r.cfg == cfg)
            && (!HasKeys(t.credentials) && t.credentialSource == "" ==> r.err.None? && r.cfg == cfg)
  {
    SourceChainTransparent(ctx, cfg, env, shared);
  }

  /** A profile whose source profile has static keys: tags are exactly [profile-source-profile, profile]. */
  lemma SourceProfileWithKeys(cfg: Config, env: EnvConfig, a: SharedConfig, b: SharedConfig)
    requires a.source == Some(b) && b.source.None? && HasKeys(b.credentials)
    ensures var r := ResolveCredsFromProfile(Background, cfg, env, a);
            && r.err.None?
            && GetCredentialSources(r.ctx) == [ProfileSourceProfile, Profile]
            && r.cfg.credentials == StaticCredentialsProvider(b.credentials, [ProfileSourceProfile, Profile])
  {
    ProfileProvenance(Background, cfg, env, a);
    ProfileProvider(Background, cfg, env, a);
  }

  // ---------------------------------------------------------------------
  // The chain
  // ---------------------------------------------------------------------

  /** The precedence switch: set profile, then environment keys, then the profile fallback. */
  function ChainBranch(ctx: Context, cfg: Config, sources: AwsConfigSources, profileSet: bool): (r: ProfileOutcome)
    ensures r.cfg.bearerAuthTokenProvider == cfg.bearerAuthTokenProvider
    ensures r.err.Some? ==> r.cfg == cfg
    ensures !profileSet && HasKeys(sources.env.credentials) ==>
      && r.err.None?
      && Sources(r.ctx) == Sources(ctx) + [EnvVars]
      && r.cfg.credentials == StaticCredentialsProvider(sources.env.credentials, Sources(r.ctx))
    ensures profileSet || !HasKeys(sources.env.credentials) ==>
      r == ResolveCredsFromProfile(ctx, cfg, sources.env, sources.shared)
  {
    if profileSet then
      ResolveCredsFromProfile(ctx, cfg, sources.env, sources.shared)
    else if HasKeys(sources.env.credentials) then
      var ctx' := AddCredentialSource(ctx, EnvVars);
      ProfileOutcome(ctx', cfg.(credentials := StaticCredentialsProvider(sources.env.credentials, GetCredentialSources(ctx'))), None)
    else
      ResolveCredsFromProfile(ctx, cfg, sources.env, sources.shared)
  }

  /** Installs the cache around whatever provider the branch left in the configuration. */
  function InstallCache(configs: Configs, p: ProfileOutcome, lk: Lookups): (r: Outcome)
    ensures r.cfg.bearerAuthTokenProvider == p.cfg.bearerAuthTokenProvider
    ensures r.err.None? ==> r.cfg.credentials.CredentialsCache?
    ensures r.err.Some? ==> r.cfg.credentials == NoProvider
  {
    match WrapWithCredentialsCache(configs, p.cfg.credentials, [], lk)
    case Err(e) => Outcome(p.cfg.(credentials := NoProvider), Some(e))
    case Ok(w) => Outcome(p.cfg.(credentials := w), None)
  }

  /**
   * Resolves the chain from the environment and shared configs. Only the
   * programmatic sources are asked whether a profile was set; any error
   * aborts before a cache is installed.
   */
  function ResolveCredentialChain(ctx: Context, cfg: Config, configs: Configs, lk: Lookups): (r: Outcome)
    ensures r.cfg.bearerAuthTokenProvider == cfg.bearerAuthTokenProvider
    ensures r.err.None? ==> r.cfg.credentials.CredentialsCache?
    ensures r.err.Some? ==> r.cfg.credentials == cfg.credentials || r.cfg.credentials == NoProvider
    ensures lk.sharedConfigProfile(GetAWSConfigSources(configs).other).LookupError? ==>
      r == Outcome(cfg, Some(lk.sharedConfigProfile(GetAWSConfigSources(configs).other).error))
  {
    var sources := GetAWSConfigSources(configs);
    match lk.sharedConfigProfile(sources.other)
    case LookupError(e) => Outcome(cfg, Some(e))
    case _ =>
      var p := ChainBranch(ctx, cfg, sources, lk.sharedConfigProfile(sources.other).Found?);
      if p.err.Some? then Outcome(p.cfg, p.err)
      else InstallCache(configs, p, lk)
  }

  /**
   * Environment keys and no programmatically set profile: the cached
   * provider is the static one with provenance exactly [env-vars].
   */
  lemma ChainEnvKeys(cfg: Config, configs: Configs, lk: Lookups)
    requires lk.sharedConfigProfile(GetAWSConfigSources(configs).other).NotFound?
    requires HasKeys(GetAWSConfigSources(configs).env.credentials)
    ensures var r := ResolveCredentialChain(Background, cfg, configs, lk);
            var env := GetAWSConfigSources(configs).env;
            r.err.None? ==> r.cfg.credentials == CredentialsCache(StaticCredentialsProvider(env.credentials, [EnvVars]),
                                                                   r.cfg.credentials.optFns)
    ensures ResolveCredentialChain(Background, cfg, configs, lk).err.Some? <==>
            lk.credentialsCacheOptions(configs).LookupError?
  {
  }

  /** A programmatically set profile wins over environment keys. */
  lemma ChainProfileSetWins(ctx: Context, cfg: Config, configs: Configs, lk: Lookups)
    requires lk.sharedConfigProfile(GetAWSConfigSources(configs).other).Found?
    ensures var s := GetAWSConfigSources(configs);
            ResolveCredentialChain(ctx, cfg, configs, lk) ==
              var p := ResolveCredsFromProfile(ctx, cfg, s.env, s.shared);
              if p.err.Some? then Outcome(cfg, p.err) else InstallCache(configs, p, lk)
  {
  }

  /** Neither a set profile nor environment keys: the profile fallback decides. */
  lemma ChainFallback(ctx: Context, cfg: Config, configs: Configs, lk: Lookups)
    requires lk.sharedConfigProfile(GetAWSConfigSources(configs).other).NotFound?
    requires !HasKeys(GetAWSConfigSources(configs).env.credentials)
    ensures var s := GetAWSConfigSources(configs);
            ResolveCredentialChain(ctx, cfg, configs, lk) ==
              var p := ResolveCredsFromProfile(ctx, cfg, s.env, s.shared);
              if p.err.Some? then Outcome(cfg, p.err) else InstallCache(configs, p, lk)
  {
  }

  // ---------------------------------------------------------------------
  // Entry points
  // ---------------------------------------------------------------------

  /**
   * Looks for an explicitly supplied provider and installs it wrapped in
   * the cache. Reports whether one was installed.
   */
  function ResolveCredentialProvider(cfg: Config, configs: Configs, lk: Lookups): (r: (bool, Outcome))
    ensures r.1.cfg.bearerAuthTokenProvider == cfg.bearerAuthTokenProvider
    ensures r.0 <==> lk.credentialsProvider(configs).Found? && r.1.err.None?
    ensures r.0 ==> WrapWithCredentialsCache(configs, lk.credentialsProvider(configs).value, [], lk)
                    == Ok(r.1.cfg.credentials)
    ensures lk.credentialsProvider(configs).NotFound? ==> r.1 == Outcome(cfg, None)
    ensures lk.credentialsProvider(configs).LookupError? ==>
      r.1 == Outcome(cfg, Some(lk.credentialsProvider(configs).error))
    ensures lk.credentialsProvider(configs).Found? && r.1.err.Some? ==> r.1.cfg.credentials == NoProvider
  {
    match lk.credentialsProvider(configs)
    case NotFound => (false, Outcome(cfg, None))
    case LookupError(e) => (false, Outcome(cfg, Some(e)))
    case Found(p) =>
      match WrapWithCredentialsCache(configs, p, [], lk)
      case Err(e) => (false, Outcome(cfg.(credentials := NoProvider), Some(e)))
      case Ok(w) => (true, Outcome(cfg.(credentials := w), None))
  }

  /** Resolves credentials: an explicit provider if there is one, else the chain. */
  function ResolveCredentials(ctx: Context, cfg: Config, configs: Configs, lk: Lookups): (r: Outcome)
    ensures r.cfg.bearerAuthTokenProvider == cfg.bearerAuthTokenProvider
    ensures r.err.None? ==> r.cfg.credentials.CredentialsCache?
    ensures r.err.Some? ==> r.cfg.credentials == cfg.credentials || r.cfg.credentials == NoProvider
    ensures lk.credentialsProvider(configs).Found? ==> r == ResolveCredentialProvider(cfg, configs, lk).1
    ensures lk.credentialsProvider(configs).LookupError? ==>
      r == Outcome(cfg, Some(lk.credentialsProvider(configs).error))
    ensures lk.credentialsProvider(configs).NotFound? ==> r == ResolveCredentialChain(ctx, cfg, configs, lk)
  {
    var (found, o) := ResolveCredentialProvider(cfg, configs, lk);
    if found || o.err.Some? then o
    else ResolveCredentialChain(ctx, o.cfg, configs, lk)
  }

  /**
   * With an explicit provider the chain is never consulted: the outcome does
   * not depend on the profile lookup, the provenance context, or the
   * environment and shared configs.
   */
  lemma ExplicitProviderBypassesChain(ctx1: Context, ctx2: Context, cfg: Config, configs: Configs,
                                      lk1: Lookups, lk2: Lookups)
    requires lk1.credentialsProvider(configs).Found?
    requires lk1.credentialsProvider(configs) == lk2.credentialsProvider(configs)
    requires lk1.credentialsCacheOptions(configs) == lk2.credentialsCacheOptions(configs)
    ensures ResolveCredentials(ctx1, cfg, configs, lk1) == ResolveCredentials(ctx2, cfg, configs, lk2)
  {
  }
}

=== FILE: static_provider.dfy ===
/** Named constructors of the IBM IAM providers. */
module StaticProvider {
  import opened Wrappers
  import opened IbmConstants
  import opened IbmIam
  import opened TrustedProfile

  /**
   * The API-key provider under the static provider name. The endpoint comes
   * first in this constructor's parameters and is passed on as the endpoint,
   * the key as the key.
   */
  function NewStaticProvider(authEndPoint: string, apiKey: string, serviceInstanceID: string,
                             buildOk: Authenticator -> bool): (r: Provider)
    ensures IbmIam.WellFormed(r)
    ensures r.providerName == "StaticProviderIBM"
    ensures apiKey == "" ==> r.errorStatus == Some(ApiKeyNotFoundError)
    ensures IbmIam.IsValid(r) ==> r.authenticator == Some(IamAuthenticator(apiKey, EndPointOrDefault(authEndPoint), true))
    ensures apiKey != "" ==> r.serviceInstanceID == serviceInstanceID
  {
    NewProvider(IBMProvider.staticProviderName, apiKey, authEndPoint, serviceInstanceID, buildOk)
  }

  /**
   * The key and the endpoint reach the generic constructor in its own
   * parameter order, under the static provider name.
   */
  lemma StaticProviderArgumentOrder(authEndPoint: string, apiKey: string, serviceInstanceID: string,
                                    buildOk: Authenticator -> bool)
    ensures NewStaticProvider(authEndPoint, apiKey, serviceInstanceID, buildOk)
         == NewProvider("StaticProviderIBM", apiKey, authEndPoint, serviceInstanceID, buildOk)
  {
  }

  /** Another name for `NewStaticProvider`. */
  function NewStaticCredentials(authEndPoint: string, apiKey: string, serviceInstanceID: string,
                                buildOk: Authenticator -> bool): (r: Provider)
    ensures r == NewStaticProvider(authEndPoint, apiKey, serviceInstanceID, buildOk)
    ensures apiKey == "" ==> !IbmIam.IsValid(r) && r.errorStatus == Some(ApiKeyNotFoundError)
  {
    NewStaticProvider(authEndPoint, apiKey, serviceInstanceID, buildOk)
  }

  /** The trusted-profile provider for a compute resource, under the trusted-profile provider name. */
  function NewTrustedProfileProviderCR(authEndPoint: string, trustedProfileID: string, crTokenFilePath: string,
                                       serviceInstanceID: string, buildOk: Authenticator -> bool): (r: TrustedProfileProvider)
    ensures TrustedProfile.WellFormed(r)
    ensures r.providerName == "TrustedProfileProviderIBM"
    ensures TrustedProfile.HasNoError(r) ==>
      r.authenticator == Some(ContainerAuthenticator(crTokenFilePath, trustedProfileID, EndPointOrDefault(authEndPoint), true))
    ensures r == NewTrustedProfileProvider("TrustedProfileProviderIBM", authEndPoint, trustedProfileID, crTokenFilePath,
                                           serviceInstanceID, "CR", buildOk)
  {
    NewTrustedProfileProvider(IBMProvider.trustedProfileProviderName, authEndPoint, trustedProfileID, crTokenFilePath,
                              serviceInstanceID, ResourceComputeResource, buildOk)
  }
}

=== FILE: trusted_profile.dfy ===
/**
 * The trusted-profile provider: a compute resource's token file is
 * exchanged for a bearer token under a trusted profile. Same pattern as
 * the API-key provider: validation errors are stored at construction and
 * reported at retrieval.
 */
module TrustedProfile {
  import opened Wrappers
  import opened Errors
  import opened Aws
  import opened IbmConstants
  import opened IbmIam

  const TrustedProfileIDNotFoundError := ApiError("trustedProfileIDNotFound", "Trusted Profile ID not found", FaultClient)
  const CRTokenFilePathNotFoundError := ApiError("crTokenFilePathNotFound", "CR Token file path not found", FaultClient)

  datatype TrustedProfileProvider = TrustedProfileProvider(
    providerName: string,
    providerType: string,
    authenticator: Option<Authenticator>,
    serviceInstanceID: string,
    errorStatus: Option<Error>)

  /** A provider without error status holds a container authenticator. */
  predicate WellFormed(p: TrustedProfileProvider) {
    p.errorStatus.None? ==> p.authenticator.Some? && p.authenticator.value.ContainerAuthenticator?
  }

  /**
   * Construction stored no error. This is a helper of the model: Go's
   * trusted-profile provider has no validity method of its own.
   */
  predicate HasNoError(p: TrustedProfileProvider) {
    p.errorStatus.None?
  }

  /**
   * Builds a provider. The endpoint is defaulted first; then an empty
   * profile ID is recorded as `trustedProfileIDNotFound`, and only after
   * that an empty token path as `crTokenFilePathNotFound`. The service
   * instance is stored only when both are present. The resource type is not
   * used.
   */
  function NewTrustedProfileProvider(providerName: string, authEndPoint: string, trustedProfileID: string,
                                     crTokenFilePath: string, serviceInstanceID: string, resourceType: string,
                                     buildOk: Authenticator -> bool): (r: TrustedProfileProvider)
    ensures WellFormed(r)
    ensures r.providerName == providerName && r.providerType == ProviderTypeOauth
    ensures trustedProfileID == "" ==> r.errorStatus == Some(TrustedProfileIDNotFoundError)
    ensures trustedProfileID != "" && crTokenFilePath == "" ==> r.errorStatus == Some(CRTokenFilePathNotFoundError)
    ensures r.serviceInstanceID == if trustedProfileID != "" && crTokenFilePath != "" then serviceInstanceID else ""
    ensures HasNoError(r) <==> (trustedProfileID != "" && crTokenFilePath != ""
                             && buildOk(ContainerAuthenticator(crTokenFilePath, trustedProfileID, EndPointOrDefault(authEndPoint), true)))
    ensures HasNoError(r) ==>
      r.authenticator == Some(ContainerAuthenticator(crTokenFilePath, trustedProfileID, EndPointOrDefault(authEndPoint), true))
    ensures trustedProfileID != "" && crTokenFilePath != "" && !HasNoError(r) ==> r.errorStatus == Some(AuthenticatorError)
    ensures !HasNoError(r) ==> r.authenticator.None?
  {
    var p := TrustedProfileProvider(providerName, ProviderTypeOauth, None, "", None);
    var endPoint := EndPointOrDefault(authEndPoint);
    if trustedProfileID == "" then p.(errorStatus := Some(TrustedProfileIDNotFoundError))
    else if crTokenFilePath == "" then p.(errorStatus := Some(CRTokenFilePathNotFoundError))
    else
      var p := p.(serviceInstanceID := serviceInstanceID);
      var auth := ContainerAuthenticator(crTokenFilePath, trustedProfileID, endPoint, true);
      if !buildOk(auth) then p.(errorStatus := Some(AuthenticatorError))
      else p.(authenticator := Some(auth))
  }

  /** Same retrieval as the API-key provider, through the container authenticator. */
  function Retrieve(p: TrustedProfileProvider, getToken: Authenticator -> Result<string, Error>): (r: Retrieved)
    requires WellFormed(p)
    ensures p.errorStatus.Some? ==> r == Retrieved(EmptyCredentials.(source := p.providerName), p.errorStatus)
    ensures p.errorStatus.None? && getToken(p.authenticator.value).Err? ==>
      r == Retrieved(EmptyCredentials, Some(TokenRetrieveError))
    ensures p.errorStatus.None? && getToken(p.authenticator.value).Ok? ==>
      r == Retrieved(BearerCredentials(getToken(p.authenticator.value).value, p.providerName, p.serviceInstanceID), None)
    ensures r.err.None? <==> HasNoError(p) && getToken(p.authenticator.value).Ok?
  {
    RetrieveWith(p.providerName, p.serviceInstanceID, p.errorStatus, p.authenticator, getToken)
  }

  /** The resource type has no effect on the provider built. */
  lemma ResourceTypeIgnored(providerName: string, authEndPoint: string, trustedProfileID: string,
                            crTokenFilePath: string, serviceInstanceID: string, rt1: string, rt2: string,
                            buildOk: Authenticator -> bool)
    ensures NewTrustedProfileProvider(providerName, authEndPoint, trustedProfileID, crTokenFilePath, serviceInstanceID, rt1, buildOk)
         == NewTrustedProfileProvider(providerName, authEndPoint, trustedProfileID, crTokenFilePath, serviceInstanceID, rt2, buildOk)
  {
  }

  /** When both the profile ID and the token path are missing, only the profile-ID error is reported. */
  lemma ProfileIDCheckedFirst(providerName: string, authEndPoint: string, serviceInstanceID: string,
                              resourceType: string, buildOk: Authenticator -> bool,
                              getToken: Authenticator -> Result<string, Error>)
    ensures var p := NewTrustedProfileProvider(providerName, authEndPoint, "", "", serviceInstanceID, resourceType, buildOk);
            Retrieve(p, getToken) == Retrieved(EmptyCredentials.(source := providerName), Some(TrustedProfileIDNotFoundError))
  {
  }
}

=== FILE: wrappers.dfy ===
/** Option and Result values shared by every module of the model. */
module Wrappers {

  /** A value that may be absent: Go's nil pointer or "not found". */
  datatype Option<+T> = None | Some(value: T) {

    /** The carried value, or `default` when absent. */
    function GetOr(default: T): T {
      match this
      case Some(v) => v
      case None => default
    }
  }

  /** A value or the error that replaced it. */
  datatype Result<+T, +E> = Ok(value: T) | Err(error: E)
}
